=== FILE: README.md ===
# Weighted string editing: cost matrix and decision sequences

This project models the core of `src/Code.java`. The program implements the
string-editing algorithm of section 5.6 of Horowitz, Sahni and Rajasekaran,
*Computer Algorithms*. Two steps turn a source string `x` into a target
string `y`:

- `generateMatrix` builds the (|x|+1) x (|y|+1) cost matrix. Row 0
  accumulates insert costs and column 0 accumulates delete costs. Every inner
  cell takes the least of three terms:
  - insert, coming from the left;
  - delete, coming from above;
  - change, coming from the upper left. A change between equal symbols is a
    free copy.
- `findDecisionSequences` starts at the bottom-right cell and walks back to
  the origin. At each cell it follows every insert, delete or change edge
  whose cost matches the matrix difference, in that order, so ties produce
  several sequences. Each branch works on its own copy of the backward
  candidate list. On reaching the origin it appends the `[0,0]` marker and
  records the reversed list.

The model has these modules:

- `EditScript` (`edit_script.dfy`) holds the shared vocabulary:
  - operation costs in integer tenths, with the driver's 0.5 / 0.4 / 1.2
    becoming `Costs(5, 4, 12)`;
  - a decision step, which is the origin marker `Start` or `Edit(i, j, op)`;
  - what a decision sequence means as a path through the matrix (`IsPathTo`);
  - what a decision sequence costs (`PathCost`);
  - what a decision sequence does when it is replayed on the source string
    (`Replay`).
- `CostMatrix` (`cost_matrix.dfy`) holds:
  - the recurrence `Cost`;
  - the cell-by-cell shape of a correct table (`IsCostTable`), proved to
    determine the table;
  - the row-by-row filling method `GenerateMatrix`.
- `DecisionSequences` (`decision_sequences.dfy`) holds:
  - `Search`, which follows the recursive method branch for branch;
  - `Via`, which models one `if` block;
  - `Enumerate`, which models the entry call from the bottom-right cell;
  - the proof that the search returns exactly the tight walks that its guard
    lets through, and none of them twice.
- `Optimality` (`optimality.dfy`) holds:
  - the optimality argument: the bottom-right entry is the least cost of any
    decision sequence, and the enumerator returns exactly the sequences of
    that cost;
  - replay of any returned sequence, which rewrites `x` into `y`;
  - the case of identical strings;
  - `Run`, the driver's wiring "build, then enumerate".
- `SlidesExample` (`slides_example.dfy`) and `Scenarios` (`scenarios.dfy`)
  hold worked examples with the driver's costs. They state the whole matrix and
  the enumerator's exact output, in discovery order.

The two core methods, `generateMatrix` and `findDecisionSequences`, read their
strings as Java `String`s and compare them one `char` at a time with `charAt`.
They never do more with a symbol than test two for equality. The model
therefore takes the symbols as a type parameter `T` with equality, and the
strings as `seq<T>`. A Java `String` is the instance whose symbols are UTF-16
code units. The worked examples use Dafny string literals, whose symbols are
characters. Those agree with code units on the characters they contain.

`doublesEqual` (src/Code.java:197-199) compares two doubles after rounding
both to one decimal. Costs here are exact multiples of a tenth, so that
comparison becomes exact equality. It appears as `==` in the branch
conditions of `DecisionSequences.Branch`.

The built-in example "aabab" -> "babb" has the optimum 1.3 (13 tenths) in
this model, which is what the recurrence as coded yields: two deletes, three
copies and one insert, for example.

## Model

| member | source | states |
|---|---|---|
| CostMatrix.Cost | src/Code.java:82-94 | The recurrence itself, described by CostBaseCases (row 0 and column 0) and CostRecurrence (every inner cell is the least of its three terms). |
| CostMatrix.Min3 | src/Code.java:94 | `Collections.min` over the insert, delete and change terms, described by Min3IsMinOf. |
| CostMatrix.Min3IsMinOf | src/Code.java:94 | The least of the three candidates is at most each of them and equal to one of them. |
| CostMatrix.CostBaseCases | src/Code.java:82-84 | Column 0 of the recurrence is i times the delete cost and row 0 is j times the insert cost. |
| CostMatrix.CostRecurrence | src/Code.java:88-94 | Every inner cell is at most each of its insert, delete and change/copy terms and equals one of them. |
| CostMatrix.CostTableEntry | src/Code.java:80-96 | A table with the base cases and the local minimum property at every inner cell holds the recurrence's value in every cell. |
| CostMatrix.CostTableCharacterization | src/Code.java:80-96 | A table of the right shape satisfies the local base-case and minimum conditions exactly when it agrees with the recurrence everywhere. |
| CostMatrix.CostNonNegative | src/Code.java:82-94 | With non-negative operation costs no matrix entry is negative. |
| CostMatrix.CostOfIdentical | src/Code.java:91-94 | Turning a string into itself costs 0 at every diagonal cell when costs are non-negative. |
| CostMatrix.CostSymmetric | src/Code.java:83-92 | Swapping source and target together with the insert and delete costs transposes the matrix. |
| CostMatrix.GenerateMatrix | src/Code.java:78-99 | The filled table has \|x\|+1 rows of \|y\|+1 entries, satisfies the base cases and the minimum recurrence cell by cell, and equals the recurrence everywhere. |
| CostMatrix.FirstRow | src/Code.java:82-84 | Row 0 holds j times the insert cost at column j and is row 0 of the recurrence. |
| CostMatrix.NextRow | src/Code.java:83-96 | Given row i-1 of the recurrence, the inner loop produces row i of the recurrence: the cumulative delete cost, then the least of the three terms at each column. |
| DecisionSequences.BranchIsTightStep | src/Code.java:165-188 | Each of the three branch conditions holds exactly when the edit into (i, j) leaves a cell inside the table whose value is the current one minus that edit's cost. |
| DecisionSequences.Branch | src/Code.java:165-182 | The three `if` conditions of the search, described by BranchIsTightStep. |
| DecisionSequences.Search | src/Code.java:150-189 | The recursive method: the guard, the origin case and the three branches in order, described by SearchCharacterization and SearchDistinct. |
| DecisionSequences.Via | src/Code.java:165-188 | One `if` block of the search: when its condition holds, the call on the copied candidate list extended by that edit, and otherwise nothing. Described through Search by SearchCharacterization. |
| DecisionSequences.Enumerate | src/Code.java:62-63 | The entry call from the bottom-right cell with an empty candidate list, described by EnumerateCharacterization. |
| DecisionSequences.SearchCharacterization | src/Code.java:150-189 | A call at (i, j) with a backward candidate list emits exactly the sequences made of a tight walk from the origin to (i, j) whose cells do not exceed the bottom-right entry, followed by the reversed candidate list. |
| DecisionSequences.TightPathCost | src/Code.java:165-188 | A walk whose every step matches the matrix difference is a decision sequence from the origin, and its summed step costs equal the difference between its end cell and the origin. |
| DecisionSequences.TightPathClimbs | src/Code.java:154 | With non-negative costs no cell on a tight walk exceeds the walk's end cell, so the guard never prunes a walk that ends at the bottom-right cell. |
| DecisionSequences.EnumerateCharacterization | src/Code.java:62-63 | The entry call returns exactly the tight walks to the bottom-right cell that stay under its value, and with non-negative costs exactly the tight walks. Each one starts with the origin marker, steps I/D/C from (i, j-1), (i-1, j) or (i-1, j-1), ends at (\|x\|, \|y\|), and costs the bottom-right entry minus the origin entry (the bottom-right entry itself on a built matrix, whose origin is 0). |
| DecisionSequences.SearchDistinct | src/Code.java:165-188 | No sequence is emitted twice, because the three branches record different edits at the same position of their candidate lists. |
| EditScript.Reverse | src/Code.java:157-158 | The reversed list has the same length and holds the k-th element from the end at position k. |
| EditScript.StartsAtOrigin | src/Code.java:156-160 | Every decision sequence that reaches a cell begins with the origin marker. |
| EditScript.ReplayPrefix | src/Code.java:165-188 | Replaying a decision sequence up to (i, j) turns the source into the first j target symbols followed by the source from position i onwards. |
| EditScript.ReplayRewrites | src/Code.java:165-188 | Replaying a decision sequence that reaches (\|x\|, \|y\|) rewrites the source into the target exactly. |
| Optimality.PathCostLowerBound | src/Code.java:86-94 | No decision sequence to (i, j) costs less than the recurrence's value there. |
| Optimality.OptimalPathIsTight | src/Code.java:165-188 | A decision sequence that achieves the recurrence's value takes only steps that the branch conditions accept. |
| Optimality.CheapestPath | src/Code.java:88-94 | For every cell some decision sequence reaches it at exactly the recurrence's value. |
| Optimality.EnumerateOptimal | src/Code.java:150-189 | On the built matrix with non-negative costs, the enumerator returns exactly the decision sequences of least cost. There is at least one, none appears twice, and the bottom-right entry is that least cost. |
| Optimality.EnumeratedReplay | src/Code.java:156-188 | Every returned sequence starts with the origin marker and, replayed in order, rewrites the source into the target. |
| Optimality.DiagonalIsFree | src/Code.java:91-92 | The all-copy diagonal walk through a string and itself is a decision sequence of cost 0. |
| Optimality.FreePathIsDiagonal | src/Code.java:89-92 | With positive insert and delete costs and a non-negative change cost, a decision sequence of cost 0 or less runs along the diagonal and is the diagonal walk of C steps (all copies when the change cost is positive). |
| Optimality.PathShape | src/Code.java:165-188 | A decision sequence to (i, j) holds exactly i deletes and changes together and exactly j inserts and changes together. |
| Optimality.PathCostCoversGaps | src/Code.java:86-92 | With non-negative costs a decision sequence costs at least the insert cost if it inserts, at least the delete cost if it deletes, and at least both if it does both. |
| Optimality.ChangesOnlyIsDiagonal | src/Code.java:181-188 | A decision sequence with no insert and no delete ends on the diagonal and is the all-change walk there. |
| Optimality.FreeSelfPathIsDiagonal | src/Code.java:86-92 | With non-negative costs and insert plus delete cost positive, the only decision sequence from a string to itself that costs nothing is the all-copy diagonal walk. |
| Optimality.IdenticalStrings | src/Code.java:80-189 | For a string and itself, with non-negative costs whose insert plus delete cost is positive, the optimum is 0 and the enumerator returns only the all-copy diagonal sequence. |
| Optimality.Run | src/Code.java:48-63 | The built matrix is a cost matrix and bounds every decision sequence's cost from below. Every returned sequence reaches the bottom-right cell, starts with the origin marker, costs the optimum, rewrites the source into the target, and appears once. With non-negative costs at least one is returned and every optimal sequence is. |
| SlidesExample.BuiltInPair | src/Code.java:14-22 | For "aabab" -> "babb" with costs 0.5/0.4/1.2, the matrix is the stated 6 x 5 table with optimum 1.3. The enumerator returns the stated five sequences in discovery order. |
| Scenarios.OnlyInserts | src/Code.java:84 | From the empty string to "abc" the matrix is one row of cumulative inserts, and the only decision sequence is three inserts. |
| Scenarios.OnlyDeletes | src/Code.java:83 | From "abc" to the empty string the matrix is one column of cumulative deletes, and the only decision sequence is three deletes. |
| Scenarios.SingleSymbol | src/Code.java:86-94 | From "a" to "b", delete-then-insert and insert-then-delete tie at 0.9 and beat the change (1.2), so the enumerator returns exactly those two sequences, the one ending in the insert first. |

## Left out

- `main` (src/Code.java:13-36) is left out. It hard-codes the example pair, loops over command-line file paths and reads each file with `Scanner`, which is all I/O. The hard-coded pair appears as `SlidesExample.BuiltInPair`.
- The output of `runAndPrint` (src/Code.java:47-67) is left out: its `printf` calls and the rule that skips printing when a string is longer than 10 symbols. Only the wiring "build the matrix, then enumerate from the bottom-right cell" is modelled, as `Optimality.Run`. The length rule also skips the enumeration itself, and the model does not reproduce that skip.
- `printMatrix` (src/Code.java:107-134) is text layout and is left out.
- The `String.format("[%d,%d]-I")` step labels are left out. Steps are the `Step` datatype, and the `[0,0]` label is `Start`.
- IEEE `double` arithmetic and the one-decimal rounding of `doublesEqual` are left out. Costs are exact integer tenths and the comparison is exact equality. Costs that are not multiples of a tenth are not modelled.
- The guard at src/Code.java:154 compares the raw doubles with `>`, without the rounding `doublesEqual` applies. With floating-point drift, a tied predecessor could come out one unit in the last place above `matrix[n][m]` and be pruned. The exact integer tenths of the model cannot show that difference, which comes with leaving out IEEE arithmetic.
- Lone UTF-16 surrogates and the splitting of characters outside the Basic Multilingual Plane into two `char`s are not shown by the worked examples, whose literals are Dafny characters. The general model covers them through the symbol type parameter.
- A matrix of the wrong shape passed to the enumerator is not modelled. Java would throw an index error, but the only caller passes the freshly built matrix, so the enumerator requires a table of the right shape.
- Optimality.EnumerateOptimal: the statement that the enumerator returns every least-cost sequence, and at least one, is made only for non-negative costs. The argument that the guard at src/Code.java:154 never prunes needs costs that never decrease along a walk. The source does not check the sign of its costs. For any costs, `DecisionSequences.EnumerateCharacterization` states exactly what is returned.
- Optimality.Run: non-emptiness and completeness are stated only for non-negative costs, for the same reason.
- Sharing of the candidate list between sibling branches is not modelled separately. Each branch copies the list before extending it (src/Code.java:166, 174, 183), and the model's lists are immutable values, so no branch can see another's state.

=== FILE: cost_matrix.dfy ===
/**
  The cost matrix builder (`generateMatrix`): the recurrence that defines the
  minimum cumulative cost of turning the first i source symbols into the first
  j target symbols, the local shape every correct table has, and the
  array-filling method that computes it.
 */
module CostMatrix {
  import opened EditScript

  /** `Collections.min` of the three candidates, first one on ties. */
  function Min3(a: int, b: int, c: int): int {
    if a <= b && a <= c then a else if b <= c then b else c
  }

  /** `v` is the least of the three candidates and is one of them. */
  predicate IsMinOf(v: int, a: int, b: int, c: int) {
    v <= a && v <= b && v <= c && (v == a || v == b || v == c)
  }

  lemma Min3IsMinOf(a: int, b: int, c: int)
    ensures IsMinOf(Min3(a, b, c), a, b, c)
  {
  }

  /** The cost recurrence: row 0 accumulates insertions, column 0 accumulates
      deletions, and every inner cell takes the cheapest of insert (from the
      left), delete (from above) and change/copy (from the diagonal). */
  function Cost<T(==)>(x: seq<T>, y: seq<T>, c: Costs, i: nat, j: nat): int
    requires i <= |x| && j <= |y|
    decreases i + j
  {
    if i == 0 && j == 0 then 0
    else if j == 0 then Cost(x, y, c, i - 1, 0) + c.del
    else if i == 0 then Cost(x, y, c, 0, j - 1) + c.ins
    else Min3(Cost(x, y, c, i, j - 1) + c.ins,
              Cost(x, y, c, i - 1, j) + c.del,
              Cost(x, y, c, i - 1, j - 1) + SubstCost(x, y, c, i, j))
  }

  /** A table with n+1 rows of m+1 entries each. */
  predicate Shaped(t: seq<seq<int>>, n: nat, m: nat) {
    |t| == n + 1 && forall a :: 0 <= a < |t| ==> |t[a]| == m + 1
  }

  /** What a correct cost matrix looks like cell by cell: origin 0, first
      column i * delete, first row j * insert, and every inner cell the least
      of its three recurrence terms. */
  ghost predicate IsCostTable<T>(x: seq<T>, y: seq<T>, c: Costs, t: seq<seq<int>>) {
    && Shaped(t, |x|, |y|)
    && t[0][0] == 0
    && (forall a :: 0 <= a <= |x| ==> t[a][0] == a * c.del)
    && (forall b :: 0 <= b <= |y| ==> t[0][b] == b * c.ins)
    && (forall a, b :: 1 <= a <= |x| && 1 <= b <= |y| ==> InnerCellIsMin(x, y, c, t, a, b))
  }

  /** Inner cell (a, b) is the least of its insert, delete and change/copy
      terms. */
  predicate InnerCellIsMin<T(==)>(x: seq<T>, y: seq<T>, c: Costs, t: seq<seq<int>>, a: nat, b: nat)
    requires Shaped(t, |x|, |y|)
    requires 1 <= a <= |x| && 1 <= b <= |y|
  {
    IsMinOf(t[a][b], t[a][b - 1] + c.ins, t[a - 1][b] + c.del,
            t[a - 1][b - 1] + SubstCost(x, y, c, a, b))
  }

  /** The first column and the first row are cumulative delete and insert
      costs. */
  lemma {:induction false} CostBaseCases<T>(x: seq<T>, y: seq<T>, c: Costs, i: nat, j: nat)
    requires i <= |x| && j <= |y|
    ensures Cost(x, y, c, i, 0) == i * c.del
    ensures Cost(x, y, c, 0, j) == j * c.ins
  {
    if i > 0 {
      CostBaseCases(x, y, c, i - 1, 0);
    }
    if j > 0 {
      CostBaseCases(x, y, c, 0, j - 1);
    }
  }

  /** Every inner cell of the recurrence is bounded by each of its three terms
      and equals one of them. */
  lemma CostRecurrence<T>(x: seq<T>, y: seq<T>, c: Costs, i: nat, j: nat)
    requires 1 <= i <= |x| && 1 <= j <= |y|
    ensures IsMinOf(Cost(x, y, c, i, j), Cost(x, y, c, i, j - 1) + c.ins,
                    Cost(x, y, c, i - 1, j) + c.del,
                    Cost(x, y, c, i - 1, j - 1) + SubstCost(x, y, c, i, j))
  {
  }

  /** A table that satisfies the local shape of a cost matrix holds exactly
      the values of the recurrence: the local conditions determine the table. */
  lemma {:induction false} CostTableEntry<T>(x: seq<T>, y: seq<T>, c: Costs, t: seq<seq<int>>, a: nat, b: nat)
    requires IsCostTable(x, y, c, t)
    requires a <= |x| && b <= |y|
    ensures t[a][b] == Cost(x, y, c, a, b)
    decreases a + b
  {
    CostBaseCases(x, y, c, a, b);
    if a > 0 && b > 0 {
      CostTableEntry(x, y, c, t, a, b - 1);
      CostTableEntry(x, y, c, t, a - 1, b);
      CostTableEntry(x, y, c, t, a - 1, b - 1);
      assert InnerCellIsMin(x, y, c, t, a, b);
    }
  }

  /** A shaped table is a cost matrix exactly when it agrees with the
      recurrence everywhere. */
  lemma CostTableCharacterization<T>(x: seq<T>, y: seq<T>, c: Costs, t: seq<seq<int>>)
    requires Shaped(t, |x|, |y|)
    ensures IsCostTable(x, y, c, t) <==>
              forall a, b {:trigger t[a][b]} :: 0 <= a <= |x| && 0 <= b <= |y| ==> t[a][b] == Cost(x, y, c, a, b)
  {
    if IsCostTable(x, y, c, t) {
      forall a, b | 0 <= a <= |x| && 0 <= b <= |y|
        ensures t[a][b] == Cost(x, y, c, a, b)
      {
        CostTableEntry(x, y, c, t, a, b);
      }
    }
    if forall a, b {:trigger t[a][b]} :: 0 <= a <= |x| && 0 <= b <= |y| ==> t[a][b] == Cost(x, y, c, a, b) {
      forall a | 0 <= a <= |x|
        ensures t[a][0] == a * c.del
      {
        CostBaseCases(x, y, c, a, 0);
      }
      forall b | 0 <= b <= |y|
        ensures t[0][b] == b * c.ins
      {
        CostBaseCases(x, y, c, 0, b);
      }
    }
  }

  /** With non-negative operation costs no entry is negative. */
  lemma {:induction false} CostNonNegative<T>(x: seq<T>, y: seq<T>, c: Costs, i: nat, j: nat)
    requires NonNegative(c)
    requires i <= |x| && j <= |y|
    ensures Cost(x, y, c, i, j) >= 0
    decreases i + j
  {
    if i > 0 {
      CostNonNegative(x, y, c, i - 1, j);
    }
    if j > 0 {
      CostNonNegative(x, y, c, i, j - 1);
    }
    if i > 0 && j > 0 {
      CostNonNegative(x, y, c, i - 1, j - 1);
    }
  }

  /** Turning a string into itself costs nothing: the diagonal adds 0 on
      matching symbols. */
  lemma {:induction false} CostOfIdentical<T>(x: seq<T>, c: Costs, i: nat)
    requires NonNegative(c)
    requires i <= |x|
    ensures Cost(x, x, c, i, i) == 0
  {
    CostNonNegative(x, x, c, i, i);
    if i > 0 {
      CostOfIdentical(x, c, i - 1);
    }
  }

  /** Swapping the strings and swapping the insert and delete costs gives the
      same cost. */
  lemma {:induction false} CostSymmetric<T>(x: seq<T>, y: seq<T>, c: Costs, i: nat, j: nat)
    requires i <= |x| && j <= |y|
    ensures Cost(x, y, c, i, j) == Cost(y, x, Swapped(c), j, i)
    decreases i + j
  {
    if i == 0 || j == 0 {
      CostSymmetricEdge(x, y, c, i, j);
    } else {
      CostSymmetric(x, y, c, i - 1, j);
      CostSymmetric(x, y, c, i, j - 1);
      CostSymmetric(x, y, c, i - 1, j - 1);
      CostSymmetricStep(x, y, c, i, j);
    }
  }

  /** `CostSymmetric` on the first row and the first column. */
  lemma CostSymmetricEdge<T>(x: seq<T>, y: seq<T>, c: Costs, i: nat, j: nat)
    requires i <= |x| && j <= |y|
    requires i == 0 || j == 0
    ensures Cost(x, y, c, i, j) == Cost(y, x, Swapped(c), j, i)
  {
    CostBaseCases(x, y, c, i, j);
    CostBaseCases(y, x, Swapped(c), j, i);
  }

  /** The insert and delete costs exchanged: the costs of the reverse edit. */
  function Swapped(c: Costs): Costs {
    Costs(c.del, c.ins, c.chg)
  }

  /** One inner cell of `CostSymmetric`, given its three neighbours. */
  lemma CostSymmetricStep<T>(x: seq<T>, y: seq<T>, c: Costs, i: nat, j: nat)
    requires 1 <= i <= |x| && 1 <= j <= |y|
    requires Cost(x, y, c, i - 1, j) == Cost(y, x, Swapped(c), j, i - 1)
    requires Cost(x, y, c, i, j - 1) == Cost(y, x, Swapped(c), j - 1, i)
    requires Cost(x, y, c, i - 1, j - 1) == Cost(y, x, Swapped(c), j - 1, i - 1)
    ensures Cost(x, y, c, i, j) == Cost(y, x, Swapped(c), j, i)
  {
    assert SubstCost(y, x, Swapped(c), j, i) == SubstCost(x, y, c, i, j);
  }

  /** `row` holds row `a` of the recurrence. */
  ghost predicate IsCostRow<T>(x: seq<T>, y: seq<T>, c: Costs, row: seq<int>, a: nat)
    requires a <= |x|
  {
    |row| == |y| + 1 && forall b {:trigger row[b]} :: 0 <= b <= |y| ==> row[b] == Cost(x, y, c, a, b)
  }

  /** `generateMatrix`: fills the (n+1) x (m+1) table row by row. Row 0 is
      the cumulative insert row, and each later row is computed from the one
      above it. The Java array of rows is a sequence of rows here. */
  method GenerateMatrix<T(==)>(x: seq<T>, y: seq<T>, c: Costs) returns (table: seq<seq<int>>)
    ensures IsCostTable(x, y, c, table)
    ensures forall a, b {:trigger table[a][b]} :: 0 <= a <= |x| && 0 <= b <= |y| ==> table[a][b] == Cost(x, y, c, a, b)
  {
    var first := FirstRow(x, y, c);
    table := [first];
    var i := 1;
    while i <= |x|
      invariant 1 <= i <= |x| + 1
      invariant |table| == i
      invariant forall a :: 0 <= a < i ==> IsCostRow(x, y, c, table[a], a)
    {
      var row := NextRow(x, y, c, i, table[i - 1]);
      table := table + [row];
      i := i + 1;
    }
    assert Shaped(table, |x|, |y|);
    CostTableCharacterization(x, y, c, table);
  }

  /** Row 0 of `generateMatrix`: the cumulative insert costs. */
  method FirstRow<T(==)>(x: seq<T>, y: seq<T>, c: Costs) returns (row: seq<int>)
    ensures forall b :: 0 <= b < |row| ==> row[b] == b * c.ins
    ensures IsCostRow(x, y, c, row, 0)
  {
    row := [0];
    var j := 1;
    while j <= |y|
      invariant 1 <= j <= |y| + 1
      invariant |row| == j
      invariant forall b {:trigger row[b]} :: 0 <= b < j ==> row[b] == Cost(x, y, c, 0, b)
    {
      row := row + [row[j - 1] + c.ins];
      j := j + 1;
    }
    forall b | 0 <= b <= |y|
      ensures row[b] == b * c.ins
    {
      CostBaseCases(x, y, c, 0, b);
    }
  }

  /** One pass of the inner loop of `generateMatrix`: row i starts with the
      cumulative delete cost, and each further cell takes the least of insert
      (from the left), delete (from above) and change/copy (from the upper
      left), the change costing nothing on equal symbols. */
  method NextRow<T(==)>(x: seq<T>, y: seq<T>, c: Costs, i: nat, above: seq<int>) returns (row: seq<int>)
    requires 1 <= i <= |x|
    requires IsCostRow(x, y, c, above, i - 1)
    ensures IsCostRow(x, y, c, row, i)
  {
    row := [above[0] + c.del];
    var j := 1;
    while j <= |y|
      invariant 1 <= j <= |y| + 1
      invariant |row| == j
      invariant forall b {:trigger row[b]} :: 0 <= b < j ==> row[b] == Cost(x, y, c, i, b)
    {
      var viaInsert := row[j - 1] + c.ins;
      var viaDelete := above[j] + c.del;
      var viaChange := if x[i - 1] != y[j - 1] then above[j - 1] + c.chg else above[j - 1];
      ExtendRow(x, y, c, i, above, row, Min3(viaInsert, viaDelete, viaChange));
      row := row + [Min3(viaInsert, viaDelete, viaChange)];
      j := j + 1;
    }
  }

  /** Appending the least of the three terms for the next column to a prefix
      of row i of the recurrence gives a longer prefix of that row. */
  lemma ExtendRow<T>(x: seq<T>, y: seq<T>, c: Costs, i: nat, above: seq<int>, row: seq<int>, v: int)
    requires 1 <= i <= |x|
    requires IsCostRow(x, y, c, above, i - 1)
    requires 1 <= |row| <= |y|
    requires forall b :: 0 <= b < |row| ==> row[b] == Cost(x, y, c, i, b)
    requires v == Min3(row[|row| - 1] + c.ins, above[|row|] + c.del, above[|row| - 1] + SubstCost(x, y, c, i, |row|))
    ensures forall b :: 0 <= b <= |row| ==> (row + [v])[b] == Cost(x, y, c, i, b)
  {
    var j := |row|;
    assert v == Cost(x, y, c, i, j);
    forall b | 0 <= b <= j
      ensures (row + [v])[b] == Cost(x, y, c, i, b)
    {
      if b < j {
        assert (row + [v])[b] == row[b];
      }
    }
  }
}

=== FILE: decision_sequences.dfy ===
/**
  The decision-sequence enumerator (`findDecisionSequences`): a depth-first
  walk backwards from the bottom-right cell of a cost matrix that follows every
  insert, delete and change/copy edge whose cost equals the difference of the
  two cells it joins, and records each walk that reaches the origin.

  Costs are integer tenths, so the program's comparison of two costs rounded
  to one decimal (`doublesEqual`) is exact equality here.
 */
module DecisionSequences {
  import opened EditScript
  import opened CostMatrix

  /** The cell a step reaches; the origin marker stands for (0, 0). */
  function Row(s: Step): nat {
    if s.Edit? then s.i else 0
  }

  function Col(s: Step): nat {
    if s.Edit? then s.j else 0
  }

  /** `p` walks from the origin to cell (i, j) inside table `t`, and every
      step's cost is exactly the difference between the table values of the
      cell it reaches and the cell it leaves. */
  predicate TightPathTo<T(==)>(x: seq<T>, y: seq<T>, c: Costs, t: seq<seq<int>>, p: seq<Step>, i: int, j: int)
    requires Shaped(t, |x|, |y|)
    decreases |p|
  {
    && |p| > 0
    && 0 <= i <= |x| && 0 <= j <= |y|
    && match p[|p| - 1]
       case Start => |p| == 1 && i == 0 && j == 0
       case Edit(a, b, op) =>
         var pi, pj := i - RowDelta(op), j - ColDelta(op);
         && a == i && b == j
         && 0 <= pi && 0 <= pj
         && t[pi][pj] == t[i][j] - StepCost(x, y, c, p[|p| - 1])
         && TightPathTo(x, y, c, t, p[..|p| - 1], pi, pj)
  }

  /** Every cell `p` visits lies inside `t` and holds at most `bound`. */
  predicate Ceiling(t: seq<seq<int>>, p: seq<Step>, bound: int) {
    forall k :: 0 <= k < |p| ==>
      Row(p[k]) < |t| && Col(p[k]) < |t[Row(p[k])]| && t[Row(p[k])][Col(p[k])] <= bound
  }

  /** The three branch conditions of `findDecisionSequences` at (i, j):
      the neighbour exists and its value equals this cell's value minus the
      operation's cost. */
  predicate Branch<T(==)>(x: seq<T>, y: seq<T>, c: Costs, t: seq<seq<int>>, i: nat, j: nat, op: Op)
    requires Shaped(t, |x|, |y|)
    requires i <= |x| && j <= |y|
  {
    match op
    case I => j > 0 && t[i][j - 1] == t[i][j] - c.ins
    case D => i > 0 && t[i - 1][j] == t[i][j] - c.del
    case C => i > 0 && j > 0 && t[i - 1][j - 1] == t[i][j] - SubstCost(x, y, c, i, j)
  }

  /** `findDecisionSequences` at cell (i, j) with the backward list
      `candidate` of the steps taken so far. A cell above the optimum
      t[n][m] is abandoned; the origin closes the sequence (marker appended,
      list reversed into forward order); otherwise the insert, delete and
      change/copy branches are tried in that order, each on its own extended
      copy of the candidate. */
  function Search<T(==)>(x: seq<T>, y: seq<T>, c: Costs, t: seq<seq<int>>, i: nat, j: nat, candidate: seq<Step>): seq<seq<Step>>
    requires Shaped(t, |x|, |y|)
    requires i <= |x| && j <= |y|
    decreases i + j, 1
  {
    if t[i][j] > t[|x|][|y|] then []
    else if i == 0 && j == 0 then [Reverse(candidate + [Start])]
    else Via(x, y, c, t, i, j, I, candidate) + Via(x, y, c, t, i, j, D, candidate) + Via(x, y, c, t, i, j, C, candidate)
  }

  /** One `if` block of `findDecisionSequences`: when the branch condition for
      `op` holds, continue from the neighbour with a copy of the candidate
      extended by the edit `[i,j]-op`. */
  function Via<T(==)>(x: seq<T>, y: seq<T>, c: Costs, t: seq<seq<int>>, i: nat, j: nat, op: Op, candidate: seq<Step>): seq<seq<Step>>
    requires Shaped(t, |x|, |y|)
    requires i <= |x| && j <= |y|
    decreases i + j, 0
  {
    if Branch(x, y, c, t, i, j, op)
    then Search(x, y, c, t, i - RowDelta(op), j - ColDelta(op), candidate + [Edit(i, j, op)])
    else []
  }

  /** The program's entry call: start at the bottom-right cell with an empty
      candidate. */
  function Enumerate<T(==)>(x: seq<T>, y: seq<T>, c: Costs, t: seq<seq<int>>): seq<seq<Step>>
    requires Shaped(t, |x|, |y|)
  {
    Search(x, y, c, t, |x|, |y|, [])
  }

  /** `p` is what the search from (i, j) with `candidate` can emit: a tight walk
      from the origin to (i, j) that never rises above the optimum, followed by
      the candidate in forward order. */
  ghost predicate Emittable<T>(x: seq<T>, y: seq<T>, c: Costs, t: seq<seq<int>>, i: nat, j: nat, candidate: seq<Step>, p: seq<Step>)
    requires Shaped(t, |x|, |y|)
  {
    var k := |p| - |candidate|;
    && k > 0
    && p[k..] == Reverse(candidate)
    && TightPathTo(x, y, c, t, p[..k], i, j)
    && Ceiling(t, p[..k], t[|x|][|y|])
  }

  lemma ReverseSnoc<T>(s: seq<T>, e: T)
    ensures Reverse(s + [e]) == [e] + Reverse(s)
  {
  }

  lemma CeilingSnoc(t: seq<seq<int>>, p: seq<Step>, s: Step, bound: int)
    ensures Ceiling(t, p + [s], bound) <==>
              Ceiling(t, p, bound) && Row(s) < |t| && Col(s) < |t[Row(s)]| && t[Row(s)][Col(s)] <= bound
  {
    var q := p + [s];
    assert forall k :: 0 <= k < |p| ==> q[k] == p[k];
    assert q[|p|] == s;
  }

  /** A tight walk cannot end in an edit at the origin. */
  lemma TightPathAtOrigin<T>(x: seq<T>, y: seq<T>, c: Costs, t: seq<seq<int>>, p: seq<Step>)
    requires Shaped(t, |x|, |y|)
    requires TightPathTo(x, y, c, t, p, 0, 0)
    ensures p == [Start]
  {
  }

  /** The cell an edit into (i, j) leaves lies inside the table. */
  predicate HasPredecessor(i: nat, j: nat, op: Op) {
    RowDelta(op) <= i && ColDelta(op) <= j
  }

  /** A branch condition holds exactly when the edit into (i, j) is a tight
      step: its cost is the difference of the two table values. */
  lemma BranchIsTightStep<T>(x: seq<T>, y: seq<T>, c: Costs, t: seq<seq<int>>, i: nat, j: nat, op: Op)
    requires Shaped(t, |x|, |y|)
    requires i <= |x| && j <= |y|
    ensures Branch(x, y, c, t, i, j, op) <==>
              HasPredecessor(i, j, op)
              && t[i - RowDelta(op)][j - ColDelta(op)] == t[i][j] - StepCost(x, y, c, Edit(i, j, op))
  {
  }

  /** One level of the search away from the origin: a sequence is emitted
      exactly when one of the three branches applies and emits it. */
  lemma SearchUnfold<T>(x: seq<T>, y: seq<T>, c: Costs, t: seq<seq<int>>, i: nat, j: nat, candidate: seq<Step>, p: seq<Step>)
    requires Shaped(t, |x|, |y|)
    requires i <= |x| && j <= |y|
    requires !(i == 0 && j == 0)
    requires t[i][j] <= t[|x|][|y|]
    ensures p in Search(x, y, c, t, i, j, candidate) <==>
              (Branch(x, y, c, t, i, j, I) && p in Search(x, y, c, t, i, j - 1, candidate + [Edit(i, j, I)]))
              || (Branch(x, y, c, t, i, j, D) && p in Search(x, y, c, t, i - 1, j, candidate + [Edit(i, j, D)]))
              || (Branch(x, y, c, t, i, j, C) && p in Search(x, y, c, t, i - 1, j - 1, candidate + [Edit(i, j, C)]))
  {
  }

  /** Taking the edit `e` into (i, j) extends an emittable sequence of its
      predecessor with the longer candidate into one of (i, j), and back. */
  lemma EmittableStep<T>(x: seq<T>, y: seq<T>, c: Costs, t: seq<seq<int>>, i: nat, j: nat, candidate: seq<Step>, p: seq<Step>, op: Op)
    requires Shaped(t, |x|, |y|)
    requires i <= |x| && j <= |y|
    requires HasPredecessor(i, j, op)
    ensures (Emittable(x, y, c, t, i, j, candidate, p) && p[|p| - |candidate| - 1] == Edit(i, j, op))
            <==>
            (Emittable(x, y, c, t, i - RowDelta(op), j - ColDelta(op), candidate + [Edit(i, j, op)], p)
             && Branch(x, y, c, t, i, j, op) && t[i][j] <= t[|x|][|y|])
  {
    if Emittable(x, y, c, t, i, j, candidate, p) && p[|p| - |candidate| - 1] == Edit(i, j, op) {
      EmittableShrink(x, y, c, t, i, j, candidate, p, op);
    }
    if Emittable(x, y, c, t, i - RowDelta(op), j - ColDelta(op), candidate + [Edit(i, j, op)], p)
       && Branch(x, y, c, t, i, j, op) && t[i][j] <= t[|x|][|y|] {
      EmittableGrow(x, y, c, t, i, j, candidate, p, op);
    }
  }

  /** Splitting `p[..k]` into its last element and the rest. */
  lemma WalkSplit(p: seq<Step>, k: nat)
    requires 1 < k <= |p|
    ensures p[..k] == p[..k - 1] + [p[k - 1]]
    ensures p[..k][..k - 1] == p[..k - 1]
    ensures p[k - 1..] == [p[k - 1]] + p[k..]
  {
  }

  /** A tight walk that ends in an edit has the origin marker before it. */
  lemma EditWalkIsLong<T>(x: seq<T>, y: seq<T>, c: Costs, t: seq<seq<int>>, q: seq<Step>, i: int, j: int)
    requires Shaped(t, |x|, |y|)
    requires TightPathTo(x, y, c, t, q, i, j)
    requires q[|q| - 1].Edit?
    ensures |q| > 1
  {
  }

  lemma EmittableShrink<T>(x: seq<T>, y: seq<T>, c: Costs, t: seq<seq<int>>, i: nat, j: nat, candidate: seq<Step>, p: seq<Step>, op: Op)
    requires Shaped(t, |x|, |y|)
    requires i <= |x| && j <= |y|
    requires HasPredecessor(i, j, op)
    requires Emittable(x, y, c, t, i, j, candidate, p)
    requires p[|p| - |candidate| - 1] == Edit(i, j, op)
    ensures Emittable(x, y, c, t, i - RowDelta(op), j - ColDelta(op), candidate + [Edit(i, j, op)], p)
    ensures Branch(x, y, c, t, i, j, op) && t[i][j] <= t[|x|][|y|]
  {
    var e := Edit(i, j, op);
    var k := |p| - |candidate|;
    ReverseSnoc(candidate, e);
    BranchIsTightStep(x, y, c, t, i, j, op);
    EditWalkIsLong(x, y, c, t, p[..k], i, j);
    WalkSplit(p, k);
    CeilingSnoc(t, p[..k - 1], e, t[|x|][|y|]);
  }

  lemma EmittableGrow<T>(x: seq<T>, y: seq<T>, c: Costs, t: seq<seq<int>>, i: nat, j: nat, candidate: seq<Step>, p: seq<Step>, op: Op)
    requires Shaped(t, |x|, |y|)
    requires i <= |x| && j <= |y|
    requires HasPredecessor(i, j, op)
    requires Emittable(x, y, c, t, i - RowDelta(op), j - ColDelta(op), candidate + [Edit(i, j, op)], p)
    requires Branch(x, y, c, t, i, j, op) && t[i][j] <= t[|x|][|y|]
    ensures Emittable(x, y, c, t, i, j, candidate, p)
    ensures p[|p| - |candidate| - 1] == Edit(i, j, op)
  {
    var e := Edit(i, j, op);
    var k := |p| - |candidate|;
    ReverseSnoc(candidate, e);
    BranchIsTightStep(x, y, c, t, i, j, op);
    WalkSplit(p, k);
    CeilingSnoc(t, p[..k - 1], e, t[|x|][|y|]);
  }

  /** Everything the search emits is a tight walk to (i, j) under the
      optimum, followed by the forward candidate. */
  lemma {:induction false} SearchSound<T>(x: seq<T>, y: seq<T>, c: Costs, t: seq<seq<int>>, i: nat, j: nat, candidate: seq<Step>, p: seq<Step>)
    requires Shaped(t, |x|, |y|)
    requires i <= |x| && j <= |y|
    requires p in Search(x, y, c, t, i, j, candidate)
    ensures Emittable(x, y, c, t, i, j, candidate, p)
    decreases i + j
  {
    if i == 0 && j == 0 {
      ReverseSnoc(candidate, Start);
      assert p == [Start] + Reverse(candidate);
      assert p[..1] == [Start];
      assert p[1..] == Reverse(candidate);
    } else {
      SearchUnfold(x, y, c, t, i, j, candidate, p);
      var op :| Branch(x, y, c, t, i, j, op)
                 && p in Search(x, y, c, t, i - RowDelta(op), j - ColDelta(op), candidate + [Edit(i, j, op)]);
      SearchSound(x, y, c, t, i - RowDelta(op), j - ColDelta(op), candidate + [Edit(i, j, op)], p);
      EmittableStep(x, y, c, t, i, j, candidate, p, op);
    }
  }

  /** Conversely, the search emits every such sequence. */
  lemma {:induction false} SearchComplete<T>(x: seq<T>, y: seq<T>, c: Costs, t: seq<seq<int>>, i: nat, j: nat, candidate: seq<Step>, p: seq<Step>)
    requires Shaped(t, |x|, |y|)
    requires i <= |x| && j <= |y|
    requires Emittable(x, y, c, t, i, j, candidate, p)
    ensures p in Search(x, y, c, t, i, j, candidate)
    decreases i + j
  {
    var k := |p| - |candidate|;
    var q := p[..k];
    assert t[i][j] <= t[|x|][|y|] by {
      assert Row(q[|q| - 1]) == i && Col(q[|q| - 1]) == j;
    }
    if i == 0 && j == 0 {
      TightPathAtOrigin(x, y, c, t, q);
      ReverseSnoc(candidate, Start);
      assert p == q + p[k..];
    } else {
      var e := q[|q| - 1];
      assert e == p[k - 1];
      EmittableStep(x, y, c, t, i, j, candidate, p, e.op);
      SearchComplete(x, y, c, t, i - RowDelta(e.op), j - ColDelta(e.op), candidate + [e], p);
      SearchUnfold(x, y, c, t, i, j, candidate, p);
    }
  }

  /** The search from (i, j) emits exactly the sequences described by
      `Emittable`. */
  lemma SearchCharacterization<T>(x: seq<T>, y: seq<T>, c: Costs, t: seq<seq<int>>, i: nat, j: nat, candidate: seq<Step>, p: seq<Step>)
    requires Shaped(t, |x|, |y|)
    requires i <= |x| && j <= |y|
    ensures p in Search(x, y, c, t, i, j, candidate) <==> Emittable(x, y, c, t, i, j, candidate, p)
  {
    if p in Search(x, y, c, t, i, j, candidate) {
      SearchSound(x, y, c, t, i, j, candidate, p);
    }
    if Emittable(x, y, c, t, i, j, candidate, p) {
      SearchComplete(x, y, c, t, i, j, candidate, p);
    }
  }

  /** A tight walk is a decision sequence whose summed step costs are the
      rise of the table from the origin to its last cell. */
  lemma {:induction false} TightPathCost<T>(x: seq<T>, y: seq<T>, c: Costs, t: seq<seq<int>>, p: seq<Step>, i: int, j: int)
    requires Shaped(t, |x|, |y|)
    requires TightPathTo(x, y, c, t, p, i, j)
    ensures IsPathTo(p, i, j)
    ensures PathCost(x, y, c, p) == t[i][j] - t[0][0]
    decreases |p|
  {
    var last := p[|p| - 1];
    if last.Edit? {
      TightPathCost(x, y, c, t, p[..|p| - 1], i - RowDelta(last.op), j - ColDelta(last.op));
    }
  }

  /** With non-negative costs a tight walk only climbs, so no cell it visits
      exceeds its last cell. */
  lemma {:induction false} TightPathClimbs<T>(x: seq<T>, y: seq<T>, c: Costs, t: seq<seq<int>>, p: seq<Step>, i: int, j: int)
    requires Shaped(t, |x|, |y|)
    requires NonNegative(c)
    requires TightPathTo(x, y, c, t, p, i, j)
    ensures Ceiling(t, p, t[i][j])
    decreases |p|
  {
    var last := p[|p| - 1];
    if last.Edit? {
      var pi, pj := i - RowDelta(last.op), j - ColDelta(last.op);
      var q := p[..|p| - 1];
      TightPathClimbs(x, y, c, t, q, pi, pj);
      assert StepCost(x, y, c, last) >= 0;
      assert p == q + [last];
      CeilingSnoc(t, q, last, t[i][j]);
    }
  }

  /** What the program's entry call returns: exactly the tight walks from the
      origin to the bottom-right cell that stay under the optimum; each one is
      a decision sequence starting with the origin marker whose step costs sum
      to the rise of the table. With non-negative costs the guard against
      cells above the optimum never prunes anything. */
  lemma EnumerateCharacterization<T>(x: seq<T>, y: seq<T>, c: Costs, t: seq<seq<int>>, p: seq<Step>)
    requires Shaped(t, |x|, |y|)
    ensures p in Enumerate(x, y, c, t) <==>
              TightPathTo(x, y, c, t, p, |x|, |y|) && Ceiling(t, p, t[|x|][|y|])
    ensures NonNegative(c) ==> (p in Enumerate(x, y, c, t) <==> TightPathTo(x, y, c, t, p, |x|, |y|))
    ensures p in Enumerate(x, y, c, t) ==>
              IsPathTo(p, |x|, |y|) && p[0] == Start
              && PathCost(x, y, c, p) == t[|x|][|y|] - t[0][0]
  {
    SearchCharacterization(x, y, c, t, |x|, |y|, [], p);
    assert p[..|p|] == p;
    if TightPathTo(x, y, c, t, p, |x|, |y|) {
      TightPathCost(x, y, c, t, p, |x|, |y|);
      StartsAtOrigin(p, |x|, |y|);
      if NonNegative(c) {
        TightPathClimbs(x, y, c, t, p, |x|, |y|);
      }
    }
  }

  /** No sequence occurs twice. */
  predicate Distinct<T(==)>(s: seq<T>) {
    forall a, b :: 0 <= a < b < |s| ==> s[a] != s[b]
  }

  lemma DistinctAppend<T>(s: seq<T>, r: seq<T>)
    requires Distinct(s) && Distinct(r)
    requires forall e :: e in s ==> e !in r
    ensures Distinct(s + r)
  {
    var u := s + r;
    forall a, b | 0 <= a < b < |u|
      ensures u[a] != u[b]
    {
      if a < |s| && b >= |s| {
        assert u[a] in s && u[b] == r[b - |s|];
      }
    }
  }

  /** Every sequence a branch emits carries that branch's edit just before the
      forward candidate. */
  lemma BranchMarker<T>(x: seq<T>, y: seq<T>, c: Costs, t: seq<seq<int>>, i: nat, j: nat, op: Op, candidate: seq<Step>, p: seq<Step>)
    requires Shaped(t, |x|, |y|)
    requires i <= |x| && j <= |y|
    requires HasPredecessor(i, j, op)
    requires p in Search(x, y, c, t, i - RowDelta(op), j - ColDelta(op), candidate + [Edit(i, j, op)])
    ensures |p| > |candidate| + 1 && p[|p| - |candidate| - 1] == Edit(i, j, op)
  {
    var e := Edit(i, j, op);
    SearchSound(x, y, c, t, i - RowDelta(op), j - ColDelta(op), candidate + [e], p);
    ReverseSnoc(candidate, e);
    var k := |p| - |candidate| - 1;
    assert p[k..][0] == e;
  }

  /** Sequences of two lists whose marker positions hold different edits
      are different. */
  lemma MarkedApart(s: seq<seq<Step>>, r: seq<seq<Step>>, n: nat, e: Step, f: Step)
    requires e != f
    requires forall p :: p in s ==> |p| > n + 1 && p[|p| - n - 1] == e
    requires forall p :: p in r ==> |p| > n + 1 && p[|p| - n - 1] == f
    ensures forall p :: p in s ==> p !in r
  {
  }

  /** The sequences one branch at (i, j) emits are distinct and each is
      marked with that branch's edit. */
  lemma {:induction false} ViaDistinct<T>(x: seq<T>, y: seq<T>, c: Costs, t: seq<seq<int>>, i: nat, j: nat, op: Op, candidate: seq<Step>)
    requires Shaped(t, |x|, |y|)
    requires i <= |x| && j <= |y|
    ensures Distinct(Via(x, y, c, t, i, j, op, candidate))
    ensures forall p :: p in Via(x, y, c, t, i, j, op, candidate) ==>
              |p| > |candidate| + 1 && p[|p| - |candidate| - 1] == Edit(i, j, op)
    decreases i + j, 0
  {
    if Branch(x, y, c, t, i, j, op) {
      SearchDistinct(x, y, c, t, i - RowDelta(op), j - ColDelta(op), candidate + [Edit(i, j, op)]);
      forall p | p in Via(x, y, c, t, i, j, op, candidate)
        ensures |p| > |candidate| + 1 && p[|p| - |candidate| - 1] == Edit(i, j, op)
      {
        BranchMarker(x, y, c, t, i, j, op, candidate, p);
      }
    }
  }

  /** The search never emits the same sequence twice: sibling branches differ
      in the edit they took at (i, j). */
  lemma {:induction false} SearchDistinct<T>(x: seq<T>, y: seq<T>, c: Costs, t: seq<seq<int>>, i: nat, j: nat, candidate: seq<Step>)
    requires Shaped(t, |x|, |y|)
    requires i <= |x| && j <= |y|
    ensures Distinct(Search(x, y, c, t, i, j, candidate))
    decreases i + j, 1
  {
    if t[i][j] <= t[|x|][|y|] && !(i == 0 && j == 0) {
      var viaInsert := Via(x, y, c, t, i, j, I, candidate);
      var viaDelete := Via(x, y, c, t, i, j, D, candidate);
      var viaChange := Via(x, y, c, t, i, j, C, candidate);
      ViaDistinct(x, y, c, t, i, j, I, candidate);
      ViaDistinct(x, y, c, t, i, j, D, candidate);
      ViaDistinct(x, y, c, t, i, j, C, candidate);
      MarkedApart(viaInsert, viaDelete, |candidate|, Edit(i, j, I), Edit(i, j, D));
      DistinctAppend(viaInsert, viaDelete);
      MarkedApart(viaInsert, viaChange, |candidate|, Edit(i, j, I), Edit(i, j, C));
      MarkedApart(viaDelete, viaChange, |candidate|, Edit(i, j, D), Edit(i, j, C));
      DistinctAppend(viaInsert + viaDelete, viaChange);
    }
  }
}

=== FILE: edit_script.dfy ===
/**
  The vocabulary shared by the cost matrix and the decision-sequence search:
  operation costs in fixed-point tenths, decision steps, what a decision
  sequence means as a path through the cost matrix, what it costs, and what it
  does to the source string when it is replayed.
 */
module EditScript {

  /** The three edit operations: Insert, Delete and Change (a Change between
      equal symbols is a free copy). */
  datatype Op = I | D | C

  /** One entry of a decision sequence: the origin marker `[0,0]`, or the
      operation `[i,j]-Op` that reaches cell (i, j) of the cost matrix. */
  datatype Step = Start | Edit(i: nat, j: nat, op: Op)

  /** Per-operation costs, in tenths of a unit, so that tie detection on
      costs is exact equality. */
  datatype Costs = Costs(ins: int, del: int, chg: int)

  /** Insert 0.5, delete 0.4, change 1.2, as used by the program's driver. */
  const DefaultCosts := Costs(5, 4, 12)

  predicate NonNegative(c: Costs) {
    c.ins >= 0 && c.del >= 0 && c.chg >= 0
  }

  /** How far back in the source string (rows) and in the target string
      (columns) an operation steps. */
  function RowDelta(op: Op): nat {
    if op == I then 0 else 1
  }

  function ColDelta(op: Op): nat {
    if op == D then 0 else 1
  }

  /** The cost of the diagonal move into cell (i, j): a change when the aligned
      symbols differ, a free copy when they agree. */
  function SubstCost<T(==)>(x: seq<T>, y: seq<T>, c: Costs, i: nat, j: nat): int
    requires 0 < i <= |x| && 0 < j <= |y|
  {
    if x[i - 1] != y[j - 1] then c.chg else 0
  }

  /** The cost one decision step adds. */
  function StepCost<T(==)>(x: seq<T>, y: seq<T>, c: Costs, s: Step): int {
    match s
    case Start => 0
    case Edit(i, j, op) =>
      match op
      case I => c.ins
      case D => c.del
      case C => if 0 < i <= |x| && 0 < j <= |y| then SubstCost(x, y, c, i, j) else c.chg
  }

  /** The summed cost of the steps of a decision sequence. */
  function PathCost<T(==)>(x: seq<T>, y: seq<T>, c: Costs, p: seq<Step>): int
    decreases |p|
  {
    if |p| == 0 then 0 else PathCost(x, y, c, p[..|p| - 1]) + StepCost(x, y, c, p[|p| - 1])
  }

  /** `p` is a decision sequence that starts with the origin marker and walks
      forward, one edit at a time, to cell (i, j): an I step at (i, j) comes
      from (i, j-1), a D step from (i-1, j), a C step from (i-1, j-1). */
  predicate IsPathTo(p: seq<Step>, i: int, j: int)
    decreases |p|
  {
    && |p| > 0
    && match p[|p| - 1]
       case Start => |p| == 1 && i == 0 && j == 0
       case Edit(a, b, op) =>
         a == i && b == j && IsPathTo(p[..|p| - 1], i - RowDelta(op), j - ColDelta(op))
  }

  /** Appending the edit into (i, j) to a decision sequence that reaches the
      edit's predecessor gives a decision sequence to (i, j) costing one step
      more. */
  lemma PathSnoc<T>(x: seq<T>, y: seq<T>, c: Costs, q: seq<Step>, i: int, j: int, op: Op)
    requires IsPathTo(q, i - RowDelta(op), j - ColDelta(op))
    ensures IsPathTo(q + [Edit(i, j, op)], i, j)
    ensures PathCost(x, y, c, q + [Edit(i, j, op)]) == PathCost(x, y, c, q) + StepCost(x, y, c, Edit(i, j, op))
  {
    assert (q + [Edit(i, j, op)])[..|q|] == q;
  }

  lemma PathToNonNegative(p: seq<Step>, i: int, j: int)
    requires IsPathTo(p, i, j)
    ensures 0 <= i && 0 <= j
  {
  }

  /** The edit a step performs on the current string. After the steps up to
      cell (i, j) the string is y[..j] + x[i..], so the cursor is at index j:
      I at (i, j) inserts y[j-1], D at (i, j) removes the symbol at index j
      (which is x[i-1]), and C at (i, j) writes y[j-1] over the symbol at
      index j-1 (which is x[i-1]). A step whose position is outside the string
      leaves it unchanged; on a decision sequence this never happens. */
  function ApplyStep<T(==)>(s: seq<T>, y: seq<T>, st: Step): seq<T> {
    match st
    case Start => s
    case Edit(_, j, op) =>
      match op
      case I => if 0 < j <= |y| && j - 1 <= |s| then s[..j - 1] + [y[j - 1]] + s[j - 1..] else s
      case D => if j < |s| then s[..j] + s[j + 1..] else s
      case C => if 0 < j <= |y| && j <= |s| then s[..j - 1] + [y[j - 1]] + s[j..] else s
  }

  /** Replays a decision sequence, in order, starting from the source string. */
  function Replay<T(==)>(x: seq<T>, y: seq<T>, p: seq<Step>): seq<T>
    decreases |p|
  {
    if |p| == 0 then x else ApplyStep(Replay(x, y, p[..|p| - 1]), y, p[|p| - 1])
  }

  /** Replaying a decision sequence that reaches cell (i, j) turns the source
      into the first j target symbols followed by the unprocessed source
      suffix. */
  lemma {:induction false} ReplayPrefix<T>(x: seq<T>, y: seq<T>, p: seq<Step>, i: nat, j: nat)
    requires IsPathTo(p, i, j)
    requires i <= |x| && j <= |y|
    ensures Replay(x, y, p) == y[..j] + x[i..]
    decreases |p|
  {
    var last := p[|p| - 1];
    if last.Edit? {
      var q := p[..|p| - 1];
      var pi, pj := i - RowDelta(last.op), j - ColDelta(last.op);
      PathToNonNegative(q, pi, pj);
      ReplayPrefix(x, y, q, pi, pj);
      assert Replay(x, y, p) == ApplyStep(y[..pj] + x[pi..], y, last);
      ApplyStepAdvances(x, y, i, j, last.op);
    }
  }

  /** The edit into (i, j), applied to the string reached at its predecessor,
      gives the string reached at (i, j). */
  lemma ApplyStepAdvances<T>(x: seq<T>, y: seq<T>, i: nat, j: nat, op: Op)
    requires RowDelta(op) <= i <= |x| && ColDelta(op) <= j <= |y|
    ensures ApplyStep(y[..j - ColDelta(op)] + x[i - RowDelta(op)..], y, Edit(i, j, op)) == y[..j] + x[i..]
  {
    var s := y[..j - ColDelta(op)] + x[i - RowDelta(op)..];
    match op
    case I =>
      assert s[..j - 1] == y[..j - 1];
      assert s[j - 1..] == x[i..];
      assert y[..j] == y[..j - 1] + [y[j - 1]];
    case D =>
      assert s[..j] == y[..j];
      assert s[j + 1..] == x[i..];
    case C =>
      assert s[..j - 1] == y[..j - 1];
      assert s[j..] == x[i..];
      assert y[..j] == y[..j - 1] + [y[j - 1]];
  }

  /** A decision sequence that reaches the bottom-right cell rewrites the
      source string into the target string exactly. */
  lemma ReplayRewrites<T>(x: seq<T>, y: seq<T>, p: seq<Step>)
    requires IsPathTo(p, |x|, |y|)
    ensures p[0] == Start
    ensures Replay(x, y, p) == y
  {
    StartsAtOrigin(p, |x|, |y|);
    ReplayPrefix(x, y, p, |x|, |y|);
  }

  lemma {:induction false} StartsAtOrigin(p: seq<Step>, i: int, j: int)
    requires IsPathTo(p, i, j)
    ensures p[0] == Start
    decreases |p|
  {
    if p[|p| - 1].Edit? {
      var last := p[|p| - 1];
      StartsAtOrigin(p[..|p| - 1], i - RowDelta(last.op), j - ColDelta(last.op));
    }
  }

  /** Order reversal of a list, as the program applies it to the backward
      candidate list when it reaches the origin. */
  function Reverse<T>(s: seq<T>): (r: seq<T>)
    ensures |r| == |s|
    ensures forall k :: 0 <= k < |s| ==> r[k] == s[|s| - 1 - k]
  {
    if |s| == 0 then [] else Reverse(s[1..]) + [s[0]]
  }
}

=== FILE: optimality.dfy ===
/**
  What the builder and the enumerator achieve together: the bottom-right
  entry of the cost matrix is the least cost of any decision sequence, the
  enumerator returns exactly the decision sequences of that least cost (at
  least one, none twice), and each of them rewrites the source string into
  the target string. `Run` is the driver's wiring: build the matrix, then
  enumerate from its bottom-right cell.
 */
module Optimality {
  import opened EditScript
  import opened CostMatrix
  import opened DecisionSequences

  /** No decision sequence to (i, j) costs less than the recurrence's value
      there. */
  lemma {:induction false} PathCostLowerBound<T>(x: seq<T>, y: seq<T>, c: Costs, p: seq<Step>, i: nat, j: nat)
    requires IsPathTo(p, i, j)
    requires i <= |x| && j <= |y|
    ensures PathCost(x, y, c, p) >= Cost(x, y, c, i, j)
    decreases |p|
  {
    var last := p[|p| - 1];
    if last.Edit? {
      var pi, pj := i - RowDelta(last.op), j - ColDelta(last.op);
      PathToNonNegative(p[..|p| - 1], pi, pj);
      PathCostLowerBound(x, y, c, p[..|p| - 1], pi, pj);
    }
  }

  /** A decision sequence that achieves the recurrence's value is a tight
      walk through any cost matrix of the two strings. */
  lemma {:induction false} OptimalPathIsTight<T>(x: seq<T>, y: seq<T>, c: Costs, t: seq<seq<int>>, p: seq<Step>, i: nat, j: nat)
    requires IsCostTable(x, y, c, t)
    requires i <= |x| && j <= |y|
    requires IsPathTo(p, i, j)
    requires PathCost(x, y, c, p) == Cost(x, y, c, i, j)
    ensures TightPathTo(x, y, c, t, p, i, j)
    decreases |p|
  {
    var last := p[|p| - 1];
    if last.Edit? {
      var q := p[..|p| - 1];
      var pi, pj := i - RowDelta(last.op), j - ColDelta(last.op);
      PathToNonNegative(q, pi, pj);
      PathCostLowerBound(x, y, c, q, pi, pj);
      assert Cost(x, y, c, i, j) <= Cost(x, y, c, pi, pj) + StepCost(x, y, c, last);
      OptimalPathIsTight(x, y, c, t, q, pi, pj);
      CostTableEntry(x, y, c, t, i, j);
      CostTableEntry(x, y, c, t, pi, pj);
    }
  }

  /** A decision sequence to (i, j) of least cost, built by following, from
      (i, j) backwards, the first recurrence term that achieves the value. */
  ghost function CheapestPath<T>(x: seq<T>, y: seq<T>, c: Costs, i: nat, j: nat): (p: seq<Step>)
    requires i <= |x| && j <= |y|
    ensures IsPathTo(p, i, j)
    ensures PathCost(x, y, c, p) == Cost(x, y, c, i, j)
    decreases i + j
  {
    if i == 0 && j == 0 then [Start]
    else
      var op := CheapestOp(x, y, c, i, j);
      CheapestOpIsTight(x, y, c, i, j);
      var q := CheapestPath(x, y, c, i - RowDelta(op), j - ColDelta(op));
      CheapestStep(x, y, c, i, j, q);
      q + [Edit(i, j, op)]
  }

  /** Extending a least-cost decision sequence to the chosen edit's
      predecessor by that edit gives a least-cost decision sequence to
      (i, j). */
  lemma CheapestStep<T>(x: seq<T>, y: seq<T>, c: Costs, i: nat, j: nat, q: seq<Step>)
    requires i <= |x| && j <= |y|
    requires !(i == 0 && j == 0)
    requires RowDelta(CheapestOp(x, y, c, i, j)) <= i && ColDelta(CheapestOp(x, y, c, i, j)) <= j
    requires IsPathTo(q, i - RowDelta(CheapestOp(x, y, c, i, j)), j - ColDelta(CheapestOp(x, y, c, i, j)))
    requires PathCost(x, y, c, q)
             == Cost(x, y, c, i - RowDelta(CheapestOp(x, y, c, i, j)), j - ColDelta(CheapestOp(x, y, c, i, j)))
    ensures IsPathTo(q + [Edit(i, j, CheapestOp(x, y, c, i, j))], i, j)
    ensures PathCost(x, y, c, q + [Edit(i, j, CheapestOp(x, y, c, i, j))]) == Cost(x, y, c, i, j)
  {
    CheapestOpIsTight(x, y, c, i, j);
    PathSnoc(x, y, c, q, i, j, CheapestOp(x, y, c, i, j));
  }

  /** The first recurrence term, in the order insert, delete, change, that
      achieves the value at (i, j). */
  function CheapestOp<T(==)>(x: seq<T>, y: seq<T>, c: Costs, i: nat, j: nat): Op
    requires i <= |x| && j <= |y|
    requires !(i == 0 && j == 0)
  {
    if j == 0 then D
    else if i == 0 then I
    else if Cost(x, y, c, i, j) == Cost(x, y, c, i, j - 1) + c.ins then I
    else if Cost(x, y, c, i, j) == Cost(x, y, c, i - 1, j) + c.del then D
    else C
  }

  /** The chosen edit leaves a cell of the matrix, and the recurrence's value
      at (i, j) is the value there plus the edit's cost. */
  lemma CheapestOpIsTight<T>(x: seq<T>, y: seq<T>, c: Costs, i: nat, j: nat)
    requires i <= |x| && j <= |y|
    requires !(i == 0 && j == 0)
    ensures RowDelta(CheapestOp(x, y, c, i, j)) <= i && ColDelta(CheapestOp(x, y, c, i, j)) <= j
    ensures Cost(x, y, c, i, j)
            == Cost(x, y, c, i - RowDelta(CheapestOp(x, y, c, i, j)), j - ColDelta(CheapestOp(x, y, c, i, j)))
               + StepCost(x, y, c, Edit(i, j, CheapestOp(x, y, c, i, j)))
  {
    if i > 0 && j > 0 {
      CostRecurrence(x, y, c, i, j);
    }
  }

  /** On a cost matrix built from the two strings, with non-negative costs,
      the enumerator returns exactly the decision sequences of least cost:
      each one reaches the bottom-right cell and costs the optimum, every such
      sequence is returned, there is at least one, and none appears twice. */
  lemma EnumerateOptimal<T>(x: seq<T>, y: seq<T>, c: Costs, t: seq<seq<int>>)
    requires NonNegative(c)
    requires IsCostTable(x, y, c, t)
    ensures forall p :: p in Enumerate(x, y, c, t) <==>
              IsPathTo(p, |x|, |y|) && PathCost(x, y, c, p) == t[|x|][|y|]
    ensures t[|x|][|y|] == Cost(x, y, c, |x|, |y|)
    ensures |Enumerate(x, y, c, t)| > 0
    ensures Distinct(Enumerate(x, y, c, t))
  {
    var n, m := |x|, |y|;
    CostTableEntry(x, y, c, t, n, m);
    forall p
      ensures p in Enumerate(x, y, c, t) <==> IsPathTo(p, n, m) && PathCost(x, y, c, p) == t[n][m]
    {
      EnumerateCharacterization(x, y, c, t, p);
      if IsPathTo(p, n, m) && PathCost(x, y, c, p) == t[n][m] {
        OptimalPathIsTight(x, y, c, t, p, n, m);
      }
    }
    var cheapest := CheapestPath(x, y, c, n, m);
    assert cheapest in Enumerate(x, y, c, t);
    SearchDistinct(x, y, c, t, n, m, []);
  }

  /** Every sequence the enumerator returns, on any table of the right shape,
      starts with the origin marker and, replayed in order, rewrites the
      source string into the target string. */
  lemma EnumeratedReplay<T>(x: seq<T>, y: seq<T>, c: Costs, t: seq<seq<int>>, p: seq<Step>)
    requires Shaped(t, |x|, |y|)
    requires p in Enumerate(x, y, c, t)
    ensures |p| > 0 && p[0] == Start
    ensures Replay(x, y, p) == y
  {
    EnumerateCharacterization(x, y, c, t, p);
    ReplayRewrites(x, y, p);
  }

  /** The decision sequence of pure change/copy steps along the diagonal. */
  function Diagonal(n: nat): seq<Step> {
    if n == 0 then [Start] else Diagonal(n - 1) + [Edit(n, n, C)]
  }

  lemma {:induction false} DiagonalIsFree<T>(x: seq<T>, c: Costs, n: nat)
    requires n <= |x|
    ensures IsPathTo(Diagonal(n), n, n)
    ensures PathCost(x, x, c, Diagonal(n)) == 0
  {
    if n > 0 {
      DiagonalIsFree(x, c, n - 1);
      assert Diagonal(n)[..|Diagonal(n)| - 1] == Diagonal(n - 1);
    }
  }

  /** With positive insert and delete costs and a non-negative change cost,
      the only decision sequences that cost nothing are the diagonal ones. */
  lemma {:induction false} FreePathIsDiagonal<T>(x: seq<T>, y: seq<T>, c: Costs, p: seq<Step>, i: nat, j: nat)
    requires c.ins > 0 && c.del > 0 && c.chg >= 0
    requires IsPathTo(p, i, j)
    requires i <= |x| && j <= |y|
    requires PathCost(x, y, c, p) <= 0
    ensures i == j && p == Diagonal(i)
    decreases |p|
  {
    var last := p[|p| - 1];
    if last.Edit? {
      var q := p[..|p| - 1];
      var pi, pj := i - RowDelta(last.op), j - ColDelta(last.op);
      PathToNonNegative(q, pi, pj);
      PathCostLowerBound(x, y, c, q, pi, pj);
      CostNonNegative(x, y, c, pi, pj);
      FreePathIsDiagonal(x, y, c, q, pi, pj);
      assert p == q + [last];
    }
  }

  /** The number of edits of kind `op` in a decision sequence. */
  function Count(p: seq<Step>, op: Op): nat
    decreases |p|
  {
    if |p| == 0 then 0
    else Count(p[..|p| - 1], op) + (if p[|p| - 1].Edit? && p[|p| - 1].op == op then 1 else 0)
  }

  /** A decision sequence to (i, j) moves down one row per delete or change
      and right one column per insert or change. */
  lemma {:induction false} PathShape(p: seq<Step>, i: int, j: int)
    requires IsPathTo(p, i, j)
    ensures i == Count(p, D) + Count(p, C)
    ensures j == Count(p, I) + Count(p, C)
    decreases |p|
  {
    var last := p[|p| - 1];
    if last.Edit? {
      PathShape(p[..|p| - 1], i - RowDelta(last.op), j - ColDelta(last.op));
    }
  }

  /** With non-negative costs a decision sequence costs nothing less than
      nothing, at least the insert cost if it inserts, at least the delete
      cost if it deletes, and at least both if it does both. */
  lemma {:induction false} PathCostCoversGaps<T>(x: seq<T>, y: seq<T>, c: Costs, p: seq<Step>)
    requires NonNegative(c)
    ensures PathCost(x, y, c, p) >= 0
    ensures Count(p, I) > 0 ==> PathCost(x, y, c, p) >= c.ins
    ensures Count(p, D) > 0 ==> PathCost(x, y, c, p) >= c.del
    ensures Count(p, I) > 0 && Count(p, D) > 0 ==> PathCost(x, y, c, p) >= c.ins + c.del
    decreases |p|
  {
    if |p| > 0 {
      PathCostCoversGaps(x, y, c, p[..|p| - 1]);
    }
  }

  /** A decision sequence made of change/copy edits only is the diagonal
      walk to its end cell. */
  lemma {:induction false} ChangesOnlyIsDiagonal(p: seq<Step>, i: int, j: int)
    requires IsPathTo(p, i, j)
    requires Count(p, I) == 0 && Count(p, D) == 0
    ensures i == j && 0 <= i && p == Diagonal(i)
    decreases |p|
  {
    var last := p[|p| - 1];
    if last.Edit? {
      var q := p[..|p| - 1];
      ChangesOnlyIsDiagonal(q, i - RowDelta(last.op), j - ColDelta(last.op));
      assert p == q + [last];
    }
  }

  /** With non-negative costs and a positive insert-plus-delete cost, the
      only decision sequence from a string to itself that costs nothing is
      the all-copy diagonal walk. */
  lemma FreeSelfPathIsDiagonal<T>(x: seq<T>, c: Costs, p: seq<Step>)
    requires NonNegative(c) && c.ins + c.del > 0
    requires IsPathTo(p, |x|, |x|)
    requires PathCost(x, x, c, p) <= 0
    ensures p == Diagonal(|x|)
  {
    PathShape(p, |x|, |x|);
    PathCostCoversGaps(x, x, c, p);
    ChangesOnlyIsDiagonal(p, |x|, |x|);
  }

  /** A list of two or more copies of `d` repeats an element. */
  lemma RepeatedCopies<T>(r: seq<T>, d: T)
    requires |r| > 1
    requires forall e :: e in r ==> e == d
    ensures !Distinct(r)
  {
    assert r[0] in r && r[1] in r;
  }

  /** A list without repetitions whose every element is `d`, and which
      contains `d`, is the one-element list. */
  lemma OnlyElement<T>(r: seq<T>, d: T)
    requires Distinct(r)
    requires d in r
    requires forall e :: e in r ==> e == d
    ensures r == [d]
  {
    if |r| > 1 {
      RepeatedCopies(r, d);
      assert false;
    }
    assert r[0] in r;
  }

  /** Turning a string into itself: the optimum is 0 and the enumerator
      returns the single all-copy diagonal sequence. */
  lemma IdenticalStrings<T>(x: seq<T>, c: Costs, t: seq<seq<int>>)
    requires NonNegative(c) && c.ins + c.del > 0
    requires IsCostTable(x, x, c, t)
    ensures t[|x|][|x|] == 0
    ensures Enumerate(x, x, c, t) == [Diagonal(|x|)]
  {
    var n := |x|;
    var r := Enumerate(x, x, c, t);
    EnumerateOptimal(x, x, c, t);
    CostOfIdentical(x, c, n);
    DiagonalIsFree(x, c, n);
    forall p | p in r
      ensures p == Diagonal(n)
    {
      FreeSelfPathIsDiagonal(x, c, p);
    }
    OnlyElement(r, Diagonal(n));
  }

  /** The driver's wiring for one pair of strings: build the cost matrix,
      then enumerate the decision sequences from its bottom-right cell. The
      matrix is a cost matrix of the two strings; no decision sequence costs
      less than its bottom-right entry; every returned sequence starts with the
      origin marker, costs exactly that entry and replays the source into the
      target; none is returned twice; and with non-negative costs every
      sequence of that cost is returned and there is at least one. */
  method Run<T(==)>(x: seq<T>, y: seq<T>, c: Costs) returns (table: seq<seq<int>>, sequences: seq<seq<Step>>)
    ensures IsCostTable(x, y, c, table)
    ensures forall p :: IsPathTo(p, |x|, |y|) ==> PathCost(x, y, c, p) >= table[|x|][|y|]
    ensures forall p :: p in sequences ==>
              && IsPathTo(p, |x|, |y|)
              && p[0] == Start
              && PathCost(x, y, c, p) == table[|x|][|y|]
              && Replay(x, y, p) == y
    ensures Distinct(sequences)
    ensures NonNegative(c) ==>
              && |sequences| > 0
              && forall p :: IsPathTo(p, |x|, |y|) && PathCost(x, y, c, p) == table[|x|][|y|] ==> p in sequences
  {
    table := GenerateMatrix(x, y, c);
    sequences := Enumerate(x, y, c, table);
    var n, m := |x|, |y|;
    CostTableEntry(x, y, c, table, n, m);
    CostTableEntry(x, y, c, table, 0, 0);
    forall p | IsPathTo(p, n, m)
      ensures PathCost(x, y, c, p) >= table[n][m]
    {
      PathCostLowerBound(x, y, c, p, n, m);
    }
    forall p | p in sequences
      ensures IsPathTo(p, n, m) && p[0] == Start && PathCost(x, y, c, p) == table[n][m] && Replay(x, y, p) == y
    {
      EnumerateCharacterization(x, y, c, table, p);
      EnumeratedReplay(x, y, c, table, p);
    }
    SearchDistinct(x, y, c, table, n, m, []);
    if NonNegative(c) {
      EnumerateOptimal(x, y, c, table);
    }
  }
}

=== FILE: scenarios.dfy ===
/**
  Small worked examples with the driver's costs (insert 0.5, delete 0.4, change
  1.2, written in tenths): empty source, empty target, and a single differing
  symbol. Each states the cost matrix and the enumerator's exact output.
 */
module Scenarios {
  import opened EditScript
  import opened CostMatrix
  import opened DecisionSequences

  /** The stated table meets the cell-by-cell conditions of a cost matrix
      for the pair. */
  lemma OnlyInsertsMatrixIsCostTable()
    ensures IsCostTable("", "abc", DefaultCosts, [[0, 5, 10, 15]])
  {
    var x, y, c := "", "abc", DefaultCosts;
    var expected := [[0, 5, 10, 15]];
    assert IsCostTable(x, y, c, expected);
  }

  /** The cost matrix of the pair is the stated table. */
  lemma OnlyInsertsMatrix(t: seq<seq<int>>)
    requires IsCostTable("", "abc", DefaultCosts, t)
    ensures t == [[0, 5, 10, 15]]
  {
    var x, y, c := "", "abc", DefaultCosts;
    var expected := [[0, 5, 10, 15]];
    OnlyInsertsMatrixIsCostTable();
    CostTableCharacterization(x, y, c, t);
    CostTableCharacterization(x, y, c, expected);
    forall a | 0 <= a < |t|
      ensures t[a] == expected[a]
    {
      assert forall b :: 0 <= b < |t[a]| ==> t[a][b] == expected[a][b];
    }
  }

  /** From the empty string: three inserts, cost 1.5, one decision sequence. */
  lemma OnlyInserts(t: seq<seq<int>>)
    requires IsCostTable("", "abc", DefaultCosts, t)
    ensures t == [[0, 5, 10, 15]]
    ensures Enumerate("", "abc", DefaultCosts, t) == [[Start, Edit(0, 1, I), Edit(0, 2, I), Edit(0, 3, I)]]
  {
    OnlyInsertsMatrix(t);
    OnlyInsertsAt0x3(t);
  }

  /** The first search call, at (0, 3), with no candidates yet. */
  lemma OnlyInsertsAt0x3(t: seq<seq<int>>)
    requires t == [[0, 5, 10, 15]]
    ensures Search("", "abc", DefaultCosts, t, 0, 3, []) == [[Start, Edit(0, 1, I), Edit(0, 2, I), Edit(0, 3, I)]]
  {
    var x, y, c := "", "abc", DefaultCosts;
    assert [] + [Edit(0, 3, I)] == [Edit(0, 3, I)];
    OnlyInsertsAt0x2AfterI(t);
    assert Via(x, y, c, t, 0, 3, I, []) == [[Start, Edit(0, 1, I), Edit(0, 2, I), Edit(0, 3, I)]];
    assert Via(x, y, c, t, 0, 3, D, []) == [];
    assert Via(x, y, c, t, 0, 3, C, []) == [];
  }

  /** The search call at (0, 2) after an insert at (0, 3). */
  lemma OnlyInsertsAt0x2AfterI(t: seq<seq<int>>)
    requires t == [[0, 5, 10, 15]]
    ensures Search("", "abc", DefaultCosts, t, 0, 2, [Edit(0, 3, I)]) == [[Start, Edit(0, 1, I), Edit(0, 2, I), Edit(0, 3, I)]]
  {
    var x, y, c := "", "abc", DefaultCosts;
    assert [Edit(0, 3, I)] + [Edit(0, 2, I)] == [Edit(0, 3, I), Edit(0, 2, I)];
    OnlyInsertsAt0x1AfterII(t);
    assert Via(x, y, c, t, 0, 2, I, [Edit(0, 3, I)]) == [[Start, Edit(0, 1, I), Edit(0, 2, I), Edit(0, 3, I)]];
    assert Via(x, y, c, t, 0, 2, D, [Edit(0, 3, I)]) == [];
    assert Via(x, y, c, t, 0, 2, C, [Edit(0, 3, I)]) == [];
  }

  /** The search call at (0, 1) after an insert at (0, 3), then an insert at
      (0, 2). */
  lemma OnlyInsertsAt0x1AfterII(t: seq<seq<int>>)
    requires t == [[0, 5, 10, 15]]
    ensures Search("", "abc", DefaultCosts, t, 0, 1, [Edit(0, 3, I), Edit(0, 2, I)]) == [[Start, Edit(0, 1, I), Edit(0, 2, I), Edit(0, 3, I)]]
  {
    var x, y, c := "", "abc", DefaultCosts;
    assert [Edit(0, 3, I), Edit(0, 2, I)] + [Edit(0, 1, I)] == [Edit(0, 3, I), Edit(0, 2, I), Edit(0, 1, I)];
    OnlyInsertsAt0x0AfterIII(t);
    assert Via(x, y, c, t, 0, 1, I, [Edit(0, 3, I), Edit(0, 2, I)]) == [[Start, Edit(0, 1, I), Edit(0, 2, I), Edit(0, 3, I)]];
    assert Via(x, y, c, t, 0, 1, D, [Edit(0, 3, I), Edit(0, 2, I)]) == [];
    assert Via(x, y, c, t, 0, 1, C, [Edit(0, 3, I), Edit(0, 2, I)]) == [];
  }

  /** The search call at (0, 0) after an insert at (0, 3), then an insert at
      (0, 2), then an insert at (0, 1). */
  lemma OnlyInsertsAt0x0AfterIII(t: seq<seq<int>>)
    requires t == [[0, 5, 10, 15]]
    ensures Search("", "abc", DefaultCosts, t, 0, 0, [Edit(0, 3, I), Edit(0, 2, I), Edit(0, 1, I)]) == [[Start, Edit(0, 1, I), Edit(0, 2, I), Edit(0, 3, I)]]
  {
    var x, y, c := "", "abc", DefaultCosts;
    assert [Edit(0, 3, I), Edit(0, 2, I), Edit(0, 1, I)] + [Start] == [Edit(0, 3, I), Edit(0, 2, I), Edit(0, 1, I), Start];
    assert Reverse([Edit(0, 3, I), Edit(0, 2, I), Edit(0, 1, I), Start]) == [Start, Edit(0, 1, I), Edit(0, 2, I), Edit(0, 3, I)];
  }

  /** The stated table meets the cell-by-cell conditions of a cost matrix
      for the pair. */
  lemma OnlyDeletesMatrixIsCostTable()
    ensures IsCostTable("abc", "", DefaultCosts, [[0], [4], [8], [12]])
  {
    var x, y, c := "abc", "", DefaultCosts;
    var expected := [[0], [4], [8], [12]];
    assert IsCostTable(x, y, c, expected);
  }

  /** The cost matrix of the pair is the stated table. */
  lemma OnlyDeletesMatrix(t: seq<seq<int>>)
    requires IsCostTable("abc", "", DefaultCosts, t)
    ensures t == [[0], [4], [8], [12]]
  {
    var x, y, c := "abc", "", DefaultCosts;
    var expected := [[0], [4], [8], [12]];
    OnlyDeletesMatrixIsCostTable();
    CostTableCharacterization(x, y, c, t);
    CostTableCharacterization(x, y, c, expected);
    forall a | 0 <= a < |t|
      ensures t[a] == expected[a]
    {
      assert forall b :: 0 <= b < |t[a]| ==> t[a][b] == expected[a][b];
    }
  }

  /** To the empty string: three deletes, cost 1.2, one decision sequence. */
  lemma OnlyDeletes(t: seq<seq<int>>)
    requires IsCostTable("abc", "", DefaultCosts, t)
    ensures t == [[0], [4], [8], [12]]
    ensures Enumerate("abc", "", DefaultCosts, t) == [[Start, Edit(1, 0, D), Edit(2, 0, D), Edit(3, 0, D)]]
  {
    OnlyDeletesMatrix(t);
    OnlyDeletesAt3x0(t);
  }

  /** The first search call, at (3, 0), with no candidates yet. */
  lemma OnlyDeletesAt3x0(t: seq<seq<int>>)
    requires t == [[0], [4], [8], [12]]
    ensures Search("abc", "", DefaultCosts, t, 3, 0, []) == [[Start, Edit(1, 0, D), Edit(2, 0, D), Edit(3, 0, D)]]
  {
    var x, y, c := "abc", "", DefaultCosts;
    assert Via(x, y, c, t, 3, 0, I, []) == [];
    assert [] + [Edit(3, 0, D)] == [Edit(3, 0, D)];
    OnlyDeletesAt2x0AfterD(t);
    assert Via(x, y, c, t, 3, 0, D, []) == [[Start, Edit(1, 0, D), Edit(2, 0, D), Edit(3, 0, D)]];
    assert Via(x, y, c, t, 3, 0, C, []) == [];
  }

  /** The search call at (2, 0) after a delete at (3, 0). */
  lemma OnlyDeletesAt2x0AfterD(t: seq<seq<int>>)
    requires t == [[0], [4], [8], [12]]
    ensures Search("abc", "", DefaultCosts, t, 2, 0, [Edit(3, 0, D)]) == [[Start, Edit(1, 0, D), Edit(2, 0, D), Edit(3, 0, D)]]
  {
    var x, y, c := "abc", "", DefaultCosts;
    assert Via(x, y, c, t, 2, 0, I, [Edit(3, 0, D)]) == [];
    assert [Edit(3, 0, D)] + [Edit(2, 0, D)] == [Edit(3, 0, D), Edit(2, 0, D)];
    OnlyDeletesAt1x0AfterDD(t);
    assert Via(x, y, c, t, 2, 0, D, [Edit(3, 0, D)]) == [[Start, Edit(1, 0, D), Edit(2, 0, D), Edit(3, 0, D)]];
    assert Via(x, y, c, t, 2, 0, C, [Edit(3, 0, D)]) == [];
  }

  /** The search call at (1, 0) after a delete at (3, 0), then a delete at
      (2, 0). */
  lemma OnlyDeletesAt1x0AfterDD(t: seq<seq<int>>)
    requires t == [[0], [4], [8], [12]]
    ensures Search("abc", "", DefaultCosts, t, 1, 0, [Edit(3, 0, D), Edit(2, 0, D)]) == [[Start, Edit(1, 0, D), Edit(2, 0, D), Edit(3, 0, D)]]
  {
    var x, y, c := "abc", "", DefaultCosts;
    assert Via(x, y, c, t, 1, 0, I, [Edit(3, 0, D), Edit(2, 0, D)]) == [];
    assert [Edit(3, 0, D), Edit(2, 0, D)] + [Edit(1, 0, D)] == [Edit(3, 0, D), Edit(2, 0, D), Edit(1, 0, D)];
    OnlyDeletesAt0x0AfterDDD(t);
    assert Via(x, y, c, t, 1, 0, D, [Edit(3, 0, D), Edit(2, 0, D)]) == [[Start, Edit(1, 0, D), Edit(2, 0, D), Edit(3, 0, D)]];
    assert Via(x, y, c, t, 1, 0, C, [Edit(3, 0, D), Edit(2, 0, D)]) == [];
  }

  /** The search call at (0, 0) after a delete at (3, 0), then a delete at
      (2, 0), then a delete at (1, 0). */
  lemma OnlyDeletesAt0x0AfterDDD(t: seq<seq<int>>)
    requires t == [[0], [4], [8], [12]]
    ensures Search("abc", "", DefaultCosts, t, 0, 0, [Edit(3, 0, D), Edit(2, 0, D), Edit(1, 0, D)]) == [[Start, Edit(1, 0, D), Edit(2, 0, D), Edit(3, 0, D)]]
  {
    var x, y, c := "abc", "", DefaultCosts;
    assert [Edit(3, 0, D), Edit(2, 0, D), Edit(1, 0, D)] + [Start] == [Edit(3, 0, D), Edit(2, 0, D), Edit(1, 0, D), Start];
    assert Reverse([Edit(3, 0, D), Edit(2, 0, D), Edit(1, 0, D), Start]) == [Start, Edit(1, 0, D), Edit(2, 0, D), Edit(3, 0, D)];
  }

  /** The stated table meets the cell-by-cell conditions of a cost matrix
      for the pair. */
  lemma SingleSymbolMatrixIsCostTable()
    ensures IsCostTable("a", "b", DefaultCosts, [[0, 5], [4, 9]])
  {
    var x, y, c := "a", "b", DefaultCosts;
    var expected := [[0, 5], [4, 9]];
    assert IsCostTable(x, y, c, expected);
  }

  /** The cost matrix of the pair is the stated table. */
  lemma SingleSymbolMatrix(t: seq<seq<int>>)
    requires IsCostTable("a", "b", DefaultCosts, t)
    ensures t == [[0, 5], [4, 9]]
  {
    var x, y, c := "a", "b", DefaultCosts;
    var expected := [[0, 5], [4, 9]];
    SingleSymbolMatrixIsCostTable();
    CostTableCharacterization(x, y, c, t);
    CostTableCharacterization(x, y, c, expected);
    forall a | 0 <= a < |t|
      ensures t[a] == expected[a]
    {
      assert forall b :: 0 <= b < |t[a]| ==> t[a][b] == expected[a][b];
    }
  }

  /** "a" -> "b": a delete and an insert (0.9) beat a change (1.2); the two
      orders tie, so there are two decision sequences and neither uses a change. */
  lemma SingleSymbol(t: seq<seq<int>>)
    requires IsCostTable("a", "b", DefaultCosts, t)
    ensures t == [[0, 5], [4, 9]]
    ensures Enumerate("a", "b", DefaultCosts, t) == [[Start, Edit(1, 0, D), Edit(1, 1, I)], [Start, Edit(0, 1, I), Edit(1, 1, D)]]
  {
    SingleSymbolMatrix(t);
    SingleSymbolAt1x1(t);
  }

  /** The first search call, at (1, 1), with no candidates yet. */
  lemma SingleSymbolAt1x1(t: seq<seq<int>>)
    requires t == [[0, 5], [4, 9]]
    ensures Search("a", "b", DefaultCosts, t, 1, 1, []) == [[Start, Edit(1, 0, D), Edit(1, 1, I)], [Start, Edit(0, 1, I), Edit(1, 1, D)]]
  {
    var x, y, c := "a", "b", DefaultCosts;
    assert [] + [Edit(1, 1, I)] == [Edit(1, 1, I)];
    SingleSymbolAt1x0AfterI(t);
    assert Via(x, y, c, t, 1, 1, I, []) == [[Start, Edit(1, 0, D), Edit(1, 1, I)]];
    assert [] + [Edit(1, 1, D)] == [Edit(1, 1, D)];
    SingleSymbolAt0x1AfterD(t);
    assert Via(x, y, c, t, 1, 1, D, []) == [[Start, Edit(0, 1, I), Edit(1, 1, D)]];
    assert Via(x, y, c, t, 1, 1, C, []) == [];
  }

  /** The search call at (0, 1) after a delete at (1, 1). */
  lemma SingleSymbolAt0x1AfterD(t: seq<seq<int>>)
    requires t == [[0, 5], [4, 9]]
    ensures Search("a", "b", DefaultCosts, t, 0, 1, [Edit(1, 1, D)]) == [[Start, Edit(0, 1, I), Edit(1, 1, D)]]
  {
    var x, y, c := "a", "b", DefaultCosts;
    assert [Edit(1, 1, D)] + [Edit(0, 1, I)] == [Edit(1, 1, D), Edit(0, 1, I)];
    SingleSymbolAt0x0AfterDI(t);
    assert Via(x, y, c, t, 0, 1, I, [Edit(1, 1, D)]) == [[Start, Edit(0, 1, I), Edit(1, 1, D)]];
    assert Via(x, y, c, t, 0, 1, D, [Edit(1, 1, D)]) == [];
    assert Via(x, y, c, t, 0, 1, C, [Edit(1, 1, D)]) == [];
  }

  /** The search call at (0, 0) after a delete at (1, 1), then an insert at
      (0, 1). */
  lemma SingleSymbolAt0x0AfterDI(t: seq<seq<int>>)
    requires t == [[0, 5], [4, 9]]
    ensures Search("a", "b", DefaultCosts, t, 0, 0, [Edit(1, 1, D), Edit(0, 1, I)]) == [[Start, Edit(0, 1, I), Edit(1, 1, D)]]
  {
    var x, y, c := "a", "b", DefaultCosts;
    assert [Edit(1, 1, D), Edit(0, 1, I)] + [Start] == [Edit(1, 1, D), Edit(0, 1, I), Start];
    assert Reverse([Edit(1, 1, D), Edit(0, 1, I), Start]) == [Start, Edit(0, 1, I), Edit(1, 1, D)];
  }

  /** The search call at (1, 0) after an insert at (1, 1). */
  lemma SingleSymbolAt1x0AfterI(t: seq<seq<int>>)
    requires t == [[0, 5], [4, 9]]
    ensures Search("a", "b", DefaultCosts, t, 1, 0, [Edit(1, 1, I)]) == [[Start, Edit(1, 0, D), Edit(1, 1, I)]]
  {
    var x, y, c := "a", "b", DefaultCosts;
    assert Via(x, y, c, t, 1, 0, I, [Edit(1, 1, I)]) == [];
    assert [Edit(1, 1, I)] + [Edit(1, 0, D)] == [Edit(1, 1, I), Edit(1, 0, D)];
    SingleSymbolAt0x0AfterID(t);
    assert Via(x, y, c, t, 1, 0, D, [Edit(1, 1, I)]) == [[Start, Edit(1, 0, D), Edit(1, 1, I)]];
    assert Via(x, y, c, t, 1, 0, C, [Edit(1, 1, I)]) == [];
  }

  /** The search call at (0, 0) after an insert at (1, 1), then a delete at
      (1, 0). */
  lemma SingleSymbolAt0x0AfterID(t: seq<seq<int>>)
    requires t == [[0, 5], [4, 9]]
    ensures Search("a", "b", DefaultCosts, t, 0, 0, [Edit(1, 1, I), Edit(1, 0, D)]) == [[Start, Edit(1, 0, D), Edit(1, 1, I)]]
  {
    var x, y, c := "a", "b", DefaultCosts;
    assert [Edit(1, 1, I), Edit(1, 0, D)] + [Start] == [Edit(1, 1, I), Edit(1, 0, D), Start];
    assert Reverse([Edit(1, 1, I), Edit(1, 0, D), Start]) == [Start, Edit(1, 0, D), Edit(1, 1, I)];
  }
}

=== FILE: slides_example.dfy ===
/**
  The program's built-in example, traced call by call through the
  decision-sequence search. A table satisfying `IsCostTable` is the one
  `GenerateMatrix` builds (`CostTableCharacterization`), so the example first
  pins down the matrix and then what the enumerator returns from it.
 */
module SlidesExample {
  import opened EditScript
  import opened CostMatrix
  import opened DecisionSequences

  /** The stated table meets the cell-by-cell conditions of a cost matrix
      for the pair. */
  lemma BuiltInMatrixIsCostTable()
    ensures IsCostTable("aabab", "babb", DefaultCosts, [[0, 5, 10, 15, 20], [4, 9, 5, 10, 15], [8, 13, 9, 14, 19], [12, 8, 13, 9, 14], [16, 12, 8, 13, 18], [20, 16, 12, 8, 13]])
  {
    var x, y, c := "aabab", "babb", DefaultCosts;
    var expected := [[0, 5, 10, 15, 20], [4, 9, 5, 10, 15], [8, 13, 9, 14, 19], [12, 8, 13, 9, 14], [16, 12, 8, 13, 18], [20, 16, 12, 8, 13]];
    assert IsCostTable(x, y, c, expected);
  }

  /** The cost matrix of the pair is the stated table. */
  lemma BuiltInMatrix(t: seq<seq<int>>)
    requires IsCostTable("aabab", "babb", DefaultCosts, t)
    ensures t == [[0, 5, 10, 15, 20], [4, 9, 5, 10, 15], [8, 13, 9, 14, 19], [12, 8, 13, 9, 14], [16, 12, 8, 13, 18], [20, 16, 12, 8, 13]]
  {
    var x, y, c := "aabab", "babb", DefaultCosts;
    var expected := [[0, 5, 10, 15, 20], [4, 9, 5, 10, 15], [8, 13, 9, 14, 19], [12, 8, 13, 9, 14], [16, 12, 8, 13, 18], [20, 16, 12, 8, 13]];
    BuiltInMatrixIsCostTable();
    CostTableCharacterization(x, y, c, t);
    CostTableCharacterization(x, y, c, expected);
    forall a | 0 <= a < |t|
      ensures t[a] == expected[a]
    {
      assert forall b :: 0 <= b < |t[a]| ==> t[a][b] == expected[a][b];
    }
  }

  /** The driver's built-in pair "aabab" -> "babb" with the driver's costs: the cost
      matrix, whose bottom-right entry gives the optimum 1.3, and the five
      optimal decision sequences in the order the search discovers them. */
  lemma BuiltInPair(t: seq<seq<int>>)
    requires IsCostTable("aabab", "babb", DefaultCosts, t)
    ensures t == [[0, 5, 10, 15, 20], [4, 9, 5, 10, 15], [8, 13, 9, 14, 19], [12, 8, 13, 9, 14], [16, 12, 8, 13, 18], [20, 16, 12, 8, 13]]
    ensures Enumerate("aabab", "babb", DefaultCosts, t) == [[Start, Edit(1, 0, D), Edit(2, 0, D), Edit(3, 1, C), Edit(4, 2, C), Edit(5, 3, C), Edit(5, 4, I)], [Start, Edit(1, 0, D), Edit(2, 0, D), Edit(3, 1, C), Edit(4, 2, C), Edit(4, 3, I), Edit(5, 4, C)], [Start, Edit(0, 1, I), Edit(1, 2, C), Edit(2, 2, D), Edit(3, 3, C), Edit(4, 3, D), Edit(5, 4, C)], [Start, Edit(1, 0, D), Edit(1, 1, I), Edit(2, 2, C), Edit(3, 3, C), Edit(4, 3, D), Edit(5, 4, C)], [Start, Edit(0, 1, I), Edit(1, 1, D), Edit(2, 2, C), Edit(3, 3, C), Edit(4, 3, D), Edit(5, 4, C)]]
  {
    BuiltInMatrix(t);
    SearchAt5x4(t);
  }

  /** The first search call, at (5, 4), with no candidates yet. */
  lemma SearchAt5x4(t: seq<seq<int>>)
    requires t == [[0, 5, 10, 15, 20], [4, 9, 5, 10, 15], [8, 13, 9, 14, 19], [12, 8, 13, 9, 14], [16, 12, 8, 13, 18], [20, 16, 12, 8, 13]]
    ensures Search("aabab", "babb", DefaultCosts, t, 5, 4, []) == [[Start, Edit(1, 0, D), Edit(2, 0, D), Edit(3, 1, C), Edit(4, 2, C), Edit(5, 3, C), Edit(5, 4, I)], [Start, Edit(1, 0, D), Edit(2, 0, D), Edit(3, 1, C), Edit(4, 2, C), Edit(4, 3, I), Edit(5, 4, C)], [Start, Edit(0, 1, I), Edit(1, 2, C), Edit(2, 2, D), Edit(3, 3, C), Edit(4, 3, D), Edit(5, 4, C)], [Start, Edit(1, 0, D), Edit(1, 1, I), Edit(2, 2, C), Edit(3, 3, C), Edit(4, 3, D), Edit(5, 4, C)], [Start, Edit(0, 1, I), Edit(1, 1, D), Edit(2, 2, C), Edit(3, 3, C), Edit(4, 3, D), Edit(5, 4, C)]]
  {
    var x, y, c := "aabab", "babb", DefaultCosts;
    assert [] + [Edit(5, 4, I)] == [Edit(5, 4, I)];
    SearchAt5x3AfterI(t);
    assert Via(x, y, c, t, 5, 4, I, []) == [[Start, Edit(1, 0, D), Edit(2, 0, D), Edit(3, 1, C), Edit(4, 2, C), Edit(5, 3, C), Edit(5, 4, I)]];
    assert Via(x, y, c, t, 5, 4, D, []) == [];
    assert [] + [Edit(5, 4, C)] == [Edit(5, 4, C)];
    SearchAt4x3AfterC(t);
    assert Via(x, y, c, t, 5, 4, C, []) == [[Start, Edit(1, 0, D), Edit(2, 0, D), Edit(3, 1, C), Edit(4, 2, C), Edit(4, 3, I), Edit(5, 4, C)], [Start, Edit(0, 1, I), Edit(1, 2, C), Edit(2, 2, D), Edit(3, 3, C), Edit(4, 3, D), Edit(5, 4, C)], [Start, Edit(1, 0, D), Edit(1, 1, I), Edit(2, 2, C), Edit(3, 3, C), Edit(4, 3, D), Edit(5, 4, C)], [Start, Edit(0, 1, I), Edit(1, 1, D), Edit(2, 2, C), Edit(3, 3, C), Edit(4, 3, D), Edit(5, 4, C)]];
  }

  /** The search call at (4, 3) after a change at (5, 4). */
  lemma SearchAt4x3AfterC(t: seq<seq<int>>)
    requires t == [[0, 5, 10, 15, 20], [4, 9, 5, 10, 15], [8, 13, 9, 14, 19], [12, 8, 13, 9, 14], [16, 12, 8, 13, 18], [20, 16, 12, 8, 13]]
    ensures Search("aabab", "babb", DefaultCosts, t, 4, 3, [Edit(5, 4, C)]) == [[Start, Edit(1, 0, D), Edit(2, 0, D), Edit(3, 1, C), Edit(4, 2, C), Edit(4, 3, I), Edit(5, 4, C)], [Start, Edit(0, 1, I), Edit(1, 2, C), Edit(2, 2, D), Edit(3, 3, C), Edit(4, 3, D), Edit(5, 4, C)], [Start, Edit(1, 0, D), Edit(1, 1, I), Edit(2, 2, C), Edit(3, 3, C), Edit(4, 3, D), Edit(5, 4, C)], [Start, Edit(0, 1, I), Edit(1, 1, D), Edit(2, 2, C), Edit(3, 3, C), Edit(4, 3, D), Edit(5, 4, C)]]
  {
    var x, y, c := "aabab", "babb", DefaultCosts;
    assert [Edit(5, 4, C)] + [Edit(4, 3, I)] == [Edit(5, 4, C), Edit(4, 3, I)];
    SearchAt4x2AfterCI(t);
    assert Via(x, y, c, t, 4, 3, I, [Edit(5, 4, C)]) == [[Start, Edit(1, 0, D), Edit(2, 0, D), Edit(3, 1, C), Edit(4, 2, C), Edit(4, 3, I), Edit(5, 4, C)]];
    assert [Edit(5, 4, C)] + [Edit(4, 3, D)] == [Edit(5, 4, C), Edit(4, 3, D)];
    SearchAt3x3AfterCD(t);
    assert Via(x, y, c, t, 4, 3, D, [Edit(5, 4, C)]) == [[Start, Edit(0, 1, I), Edit(1, 2, C), Edit(2, 2, D), Edit(3, 3, C), Edit(4, 3, D), Edit(5, 4, C)], [Start, Edit(1, 0, D), Edit(1, 1, I), Edit(2, 2, C), Edit(3, 3, C), Edit(4, 3, D), Edit(5, 4, C)], [Start, Edit(0, 1, I), Edit(1, 1, D), Edit(2, 2, C), Edit(3, 3, C), Edit(4, 3, D), Edit(5, 4, C)]];
    assert Via(x, y, c, t, 4, 3, C, [Edit(5, 4, C)]) == [];
  }

  /** The search call at (3, 3) after a change at (5, 4), then a delete at
      (4, 3). */
  lemma SearchAt3x3AfterCD(t: seq<seq<int>>)
    requires t == [[0, 5, 10, 15, 20], [4, 9, 5, 10, 15], [8, 13, 9, 14, 19], [12, 8, 13, 9, 14], [16, 12, 8, 13, 18], [20, 16, 12, 8, 13]]
    ensures Search("aabab", "babb", DefaultCosts, t, 3, 3, [Edit(5, 4, C), Edit(4, 3, D)]) == [[Start, Edit(0, 1, I), Edit(1, 2, C), Edit(2, 2, D), Edit(3, 3, C), Edit(4, 3, D), Edit(5, 4, C)], [Start, Edit(1, 0, D), Edit(1, 1, I), Edit(2, 2, C), Edit(3, 3, C), Edit(4, 3, D), Edit(5, 4, C)], [Start, Edit(0, 1, I), Edit(1, 1, D), Edit(2, 2, C), Edit(3, 3, C), Edit(4, 3, D), Edit(5, 4, C)]]
  {
    var x, y, c := "aabab", "babb", DefaultCosts;
    assert Via(x, y, c, t, 3, 3, I, [Edit(5, 4, C), Edit(4, 3, D)]) == [];
    assert Via(x, y, c, t, 3, 3, D, [Edit(5, 4, C), Edit(4, 3, D)]) == [];
    assert [Edit(5, 4, C), Edit(4, 3, D)] + [Edit(3, 3, C)] == [Edit(5, 4, C), Edit(4, 3, D), Edit(3, 3, C)];
    SearchAt2x2AfterCDC(t);
    assert Via(x, y, c, t, 3, 3, C, [Edit(5, 4, C), Edit(4, 3, D)]) == [[Start, Edit(0, 1, I), Edit(1, 2, C), Edit(2, 2, D), Edit(3, 3, C), Edit(4, 3, D), Edit(5, 4, C)], [Start, Edit(1, 0, D), Edit(1, 1, I), Edit(2, 2, C), Edit(3, 3, C), Edit(4, 3, D), Edit(5, 4, C)], [Start, Edit(0, 1, I), Edit(1, 1, D), Edit(2, 2, C), Edit(3, 3, C), Edit(4, 3, D), Edit(5, 4, C)]];
  }

  /** The search call at (2, 2) after a change at (5, 4), then a delete at
      (4, 3), then a change at (3, 3). */
  lemma SearchAt2x2AfterCDC(t: seq<seq<int>>)
    requires t == [[0, 5, 10, 15, 20], [4, 9, 5, 10, 15], [8, 13, 9, 14, 19], [12, 8, 13, 9, 14], [16, 12, 8, 13, 18], [20, 16, 12, 8, 13]]
    ensures Search("aabab", "babb", DefaultCosts, t, 2, 2, [Edit(5, 4, C), Edit(4, 3, D), Edit(3, 3, C)]) == [[Start, Edit(0, 1, I), Edit(1, 2, C), Edit(2, 2, D), Edit(3, 3, C), Edit(4, 3, D), Edit(5, 4, C)], [Start, Edit(1, 0, D), Edit(1, 1, I), Edit(2, 2, C), Edit(3, 3, C), Edit(4, 3, D), Edit(5, 4, C)], [Start, Edit(0, 1, I), Edit(1, 1, D), Edit(2, 2, C), Edit(3, 3, C), Edit(4, 3, D), Edit(5, 4, C)]]
  {
    var x, y, c := "aabab", "babb", DefaultCosts;
    assert Via(x, y, c, t, 2, 2, I, [Edit(5, 4, C), Edit(4, 3, D), Edit(3, 3, C)]) == [];
    assert [Edit(5, 4, C), Edit(4, 3, D), Edit(3, 3, C)] + [Edit(2, 2, D)] == [Edit(5, 4, C), Edit(4, 3, D), Edit(3, 3, C), Edit(2, 2, D)];
    SearchAt1x2AfterCDCD(t);
    assert Via(x, y, c, t, 2, 2, D, [Edit(5, 4, C), Edit(4, 3, D), Edit(3, 3, C)]) == [[Start, Edit(0, 1, I), Edit(1, 2, C), Edit(2, 2, D), Edit(3, 3, C), Edit(4, 3, D), Edit(5, 4, C)]];
    assert [Edit(5, 4, C), Edit(4, 3, D), Edit(3, 3, C)] + [Edit(2, 2, C)] == [Edit(5, 4, C), Edit(4, 3, D), Edit(3, 3, C), Edit(2, 2, C)];
    SearchAt1x1AfterCDCC(t);
    assert Via(x, y, c, t, 2, 2, C, [Edit(5, 4, C), Edit(4, 3, D), Edit(3, 3, C)]) == [[Start, Edit(1, 0, D), Edit(1, 1, I), Edit(2, 2, C), Edit(3, 3, C), Edit(4, 3, D), Edit(5, 4, C)], [Start, Edit(0, 1, I), Edit(1, 1, D), Edit(2, 2, C), Edit(3, 3, C), Edit(4, 3, D), Edit(5, 4, C)]];
  }

  /** The search call at (1, 1) after a change at (5, 4), then a delete at
      (4, 3), then a change at (3, 3), then a change at (2, 2). */
  lemma SearchAt1x1AfterCDCC(t: seq<seq<int>>)
    requires t == [[0, 5, 10, 15, 20], [4, 9, 5, 10, 15], [8, 13, 9, 14, 19], [12, 8, 13, 9, 14], [16, 12, 8, 13, 18], [20, 16, 12, 8, 13]]
    ensures Search("aabab", "babb", DefaultCosts, t, 1, 1, [Edit(5, 4, C), Edit(4, 3, D), Edit(3, 3, C), Edit(2, 2, C)]) == [[Start, Edit(1, 0, D), Edit(1, 1, I), Edit(2, 2, C), Edit(3, 3, C), Edit(4, 3, D), Edit(5, 4, C)], [Start, Edit(0, 1, I), Edit(1, 1, D), Edit(2, 2, C), Edit(3, 3, C), Edit(4, 3, D), Edit(5, 4, C)]]
  {
    var x, y, c := "aabab", "babb", DefaultCosts;
    assert [Edit(5, 4, C), Edit(4, 3, D), Edit(3, 3, C), Edit(2, 2, C)] + [Edit(1, 1, I)] == [Edit(5, 4, C), Edit(4, 3, D), Edit(3, 3, C), Edit(2, 2, C), Edit(1, 1, I)];
    SearchAt1x0AfterCDCCI(t);
    assert Via(x, y, c, t, 1, 1, I, [Edit(5, 4, C), Edit(4, 3, D), Edit(3, 3, C), Edit(2, 2, C)]) == [[Start, Edit(1, 0, D), Edit(1, 1, I), Edit(2, 2, C), Edit(3, 3, C), Edit(4, 3, D), Edit(5, 4, C)]];
    assert [Edit(5, 4, C), Edit(4, 3, D), Edit(3, 3, C), Edit(2, 2, C)] + [Edit(1, 1, D)] == [Edit(5, 4, C), Edit(4, 3, D), Edit(3, 3, C), Edit(2, 2, C), Edit(1, 1, D)];
    SearchAt0x1AfterCDCCD(t);
    assert Via(x, y, c, t, 1, 1, D, [Edit(5, 4, C), Edit(4, 3, D), Edit(3, 3, C), Edit(2, 2, C)]) == [[Start, Edit(0, 1, I), Edit(1, 1, D), Edit(2, 2, C), Edit(3, 3, C), Edit(4, 3, D), Edit(5, 4, C)]];
    assert Via(x, y, c, t, 1, 1, C, [Edit(5, 4, C), Edit(4, 3, D), Edit(3, 3, C), Edit(2, 2, C)]) == [];
  }

  /** The search call at (0, 1) after a change at (5, 4), then a delete at
      (4, 3), then a change at (3, 3), then a change at (2, 2), then a
      delete at (1, 1). */
  lemma SearchAt0x1AfterCDCCD(t: seq<seq<int>>)
    requires t == [[0, 5, 10, 15, 20], [4, 9, 5, 10, 15], [8, 13, 9, 14, 19], [12, 8, 13, 9, 14], [16, 12, 8, 13, 18], [20, 16, 12, 8, 13]]
    ensures Search("aabab", "babb", DefaultCosts, t, 0, 1, [Edit(5, 4, C), Edit(4, 3, D), Edit(3, 3, C), Edit(2, 2, C), Edit(1, 1, D)]) == [[Start, Edit(0, 1, I), Edit(1, 1, D), Edit(2, 2, C), Edit(3, 3, C), Edit(4, 3, D), Edit(5, 4, C)]]
  {
    var x, y, c := "aabab", "babb", DefaultCosts;
    assert [Edit(5, 4, C), Edit(4, 3, D), Edit(3, 3, C), Edit(2, 2, C), Edit(1, 1, D)] + [Edit(0, 1, I)] == [Edit(5, 4, C), Edit(4, 3, D), Edit(3, 3, C), Edit(2, 2, C), Edit(1, 1, D), Edit(0, 1, I)];
    SearchAt0x0AfterCDCCDI(t);
    assert Via(x, y, c, t, 0, 1, I, [Edit(5, 4, C), Edit(4, 3, D), Edit(3, 3, C), Edit(2, 2, C), Edit(1, 1, D)]) == [[Start, Edit(0, 1, I), Edit(1, 1, D), Edit(2, 2, C), Edit(3, 3, C), Edit(4, 3, D), Edit(5, 4, C)]];
    assert Via(x, y, c, t, 0, 1, D, [Edit(5, 4, C), Edit(4, 3, D), Edit(3, 3, C), Edit(2, 2, C), Edit(1, 1, D)]) == [];
    assert Via(x, y, c, t, 0, 1, C, [Edit(5, 4, C), Edit(4, 3, D), Edit(3, 3, C), Edit(2, 2, C), Edit(1, 1, D)]) == [];
  }

  /** The search call at (0, 0) after a change at (5, 4), then a delete at
      (4, 3), then a change at (3, 3), then a change at (2, 2), then a
      delete at (1, 1), then an insert at (0, 1). */
  lemma SearchAt0x0AfterCDCCDI(t: seq<seq<int>>)
    requires t == [[0, 5, 10, 15, 20], [4, 9, 5, 10, 15], [8, 13, 9, 14, 19], [12, 8, 13, 9, 14], [16, 12, 8, 13, 18], [20, 16, 12, 8, 13]]
    ensures Search("aabab", "babb", DefaultCosts, t, 0, 0, [Edit(5, 4, C), Edit(4, 3, D), Edit(3, 3, C), Edit(2, 2, C), Edit(1, 1, D), Edit(0, 1, I)]) == [[Start, Edit(0, 1, I), Edit(1, 1, D), Edit(2, 2, C), Edit(3, 3, C), Edit(4, 3, D), Edit(5, 4, C)]]
  {
    var x, y, c := "aabab", "babb", DefaultCosts;
    assert [Edit(5, 4, C), Edit(4, 3, D), Edit(3, 3, C), Edit(2, 2, C), Edit(1, 1, D), Edit(0, 1, I)] + [Start] == [Edit(5, 4, C), Edit(4, 3, D), Edit(3, 3, C), Edit(2, 2, C), Edit(1, 1, D), Edit(0, 1, I), Start];
    assert Reverse([Edit(5, 4, C), Edit(4, 3, D), Edit(3, 3, C), Edit(2, 2, C), Edit(1, 1, D), Edit(0, 1, I), Start]) == [Start, Edit(0, 1, I), Edit(1, 1, D), Edit(2, 2, C), Edit(3, 3, C), Edit(4, 3, D), Edit(5, 4, C)];
  }

  /** The search call at (1, 0) after a change at (5, 4), then a delete at
      (4, 3), then a change at (3, 3), then a change at (2, 2), then an
      insert at (1, 1). */
  lemma SearchAt1x0AfterCDCCI(t: seq<seq<int>>)
    requires t == [[0, 5, 10, 15, 20], [4, 9, 5, 10, 15], [8, 13, 9, 14, 19], [12, 8, 13, 9, 14], [16, 12, 8, 13, 18], [20, 16, 12, 8, 13]]
    ensures Search("aabab", "babb", DefaultCosts, t, 1, 0, [Edit(5, 4, C), Edit(4, 3, D), Edit(3, 3, C), Edit(2, 2, C), Edit(1, 1, I)]) == [[Start, Edit(1, 0, D), Edit(1, 1, I), Edit(2, 2, C), Edit(3, 3, C), Edit(4, 3, D), Edit(5, 4, C)]]
  {
    var x, y, c := "aabab", "babb", DefaultCosts;
    assert Via(x, y, c, t, 1, 0, I, [Edit(5, 4, C), Edit(4, 3, D), Edit(3, 3, C), Edit(2, 2, C), Edit(1, 1, I)]) == [];
    assert [Edit(5, 4, C), Edit(4, 3, D), Edit(3, 3, C), Edit(2, 2, C), Edit(1, 1, I)] + [Edit(1, 0, D)] == [Edit(5, 4, C), Edit(4, 3, D), Edit(3, 3, C), Edit(2, 2, C), Edit(1, 1, I), Edit(1, 0, D)];
    SearchAt0x0AfterCDCCID(t);
    assert Via(x, y, c, t, 1, 0, D, [Edit(5, 4, C), Edit(4, 3, D), Edit(3, 3, C), Edit(2, 2, C), Edit(1, 1, I)]) == [[Start, Edit(1, 0, D), Edit(1, 1, I), Edit(2, 2, C), Edit(3, 3, C), Edit(4, 3, D), Edit(5, 4, C)]];
    assert Via(x, y, c, t, 1, 0, C, [Edit(5, 4, C), Edit(4, 3, D), Edit(3, 3, C), Edit(2, 2, C), Edit(1, 1, I)]) == [];
  }

  /** The search call at (0, 0) after a change at (5, 4), then a delete at
      (4, 3), then a change at (3, 3), then a change at (2, 2), then an
      insert at (1, 1), then a delete at (1, 0). */
  lemma SearchAt0x0AfterCDCCID(t: seq<seq<int>>)
    requires t == [[0, 5, 10, 15, 20], [4, 9, 5, 10, 15], [8, 13, 9, 14, 19], [12, 8, 13, 9, 14], [16, 12, 8, 13, 18], [20, 16, 12, 8, 13]]
    ensures Search("aabab", "babb", DefaultCosts, t, 0, 0, [Edit(5, 4, C), Edit(4, 3, D), Edit(3, 3, C), Edit(2, 2, C), Edit(1, 1, I), Edit(1, 0, D)]) == [[Start, Edit(1, 0, D), Edit(1, 1, I), Edit(2, 2, C), Edit(3, 3, C), Edit(4, 3, D), Edit(5, 4, C)]]
  {
    var x, y, c := "aabab", "babb", DefaultCosts;
    assert [Edit(5, 4, C), Edit(4, 3, D), Edit(3, 3, C), Edit(2, 2, C), Edit(1, 1, I), Edit(1, 0, D)] + [Start] == [Edit(5, 4, C), Edit(4, 3, D), Edit(3, 3, C), Edit(2, 2, C), Edit(1, 1, I), Edit(1, 0, D), Start];
    assert Reverse([Edit(5, 4, C), Edit(4, 3, D), Edit(3, 3, C), Edit(2, 2, C), Edit(1, 1, I), Edit(1, 0, D), Start]) == [Start, Edit(1, 0, D), Edit(1, 1, I), Edit(2, 2, C), Edit(3, 3, C), Edit(4, 3, D), Edit(5, 4, C)];
  }

  /** The search call at (1, 2) after a change at (5, 4), then a delete at
      (4, 3), then a change at (3, 3), then a delete at (2, 2). */
  lemma SearchAt1x2AfterCDCD(t: seq<seq<int>>)
    requires t == [[0, 5, 10, 15, 20], [4, 9, 5, 10, 15], [8, 13, 9, 14, 19], [12, 8, 13, 9, 14], [16, 12, 8, 13, 18], [20, 16, 12, 8, 13]]
    ensures Search("aabab", "babb", DefaultCosts, t, 1, 2, [Edit(5, 4, C), Edit(4, 3, D), Edit(3, 3, C), Edit(2, 2, D)]) == [[Start, Edit(0, 1, I), Edit(1, 2, C), Edit(2, 2, D), Edit(3, 3, C), Edit(4, 3, D), Edit(5, 4, C)]]
  {
    var x, y, c := "aabab", "babb", DefaultCosts;
    assert Via(x, y, c, t, 1, 2, I, [Edit(5, 4, C), Edit(4, 3, D), Edit(3, 3, C), Edit(2, 2, D)]) == [];
    assert Via(x, y, c, t, 1, 2, D, [Edit(5, 4, C), Edit(4, 3, D), Edit(3, 3, C), Edit(2, 2, D)]) == [];
    assert [Edit(5, 4, C), Edit(4, 3, D), Edit(3, 3, C), Edit(2, 2, D)] + [Edit(1, 2, C)] == [Edit(5, 4, C), Edit(4, 3, D), Edit(3, 3, C), Edit(2, 2, D), Edit(1, 2, C)];
    SearchAt0x1AfterCDCDC(t);
    assert Via(x, y, c, t, 1, 2, C, [Edit(5, 4, C), Edit(4, 3, D), Edit(3, 3, C), Edit(2, 2, D)]) == [[Start, Edit(0, 1, I), Edit(1, 2, C), Edit(2, 2, D), Edit(3, 3, C), Edit(4, 3, D), Edit(5, 4, C)]];
  }

  /** The search call at (0, 1) after a change at (5, 4), then a delete at
      (4, 3), then a change at (3, 3), then a delete at (2, 2), then a
      change at (1, 2). */
  lemma SearchAt0x1AfterCDCDC(t: seq<seq<int>>)
    requires t == [[0, 5, 10, 15, 20], [4, 9, 5, 10, 15], [8, 13, 9, 14, 19], [12, 8, 13, 9, 14], [16, 12, 8, 13, 18], [20, 16, 12, 8, 13]]
    ensures Search("aabab", "babb", DefaultCosts, t, 0, 1, [Edit(5, 4, C), Edit(4, 3, D), Edit(3, 3, C), Edit(2, 2, D), Edit(1, 2, C)]) == [[Start, Edit(0, 1, I), Edit(1, 2, C), Edit(2, 2, D), Edit(3, 3, C), Edit(4, 3, D), Edit(5, 4, C)]]
  {
    var x, y, c := "aabab", "babb", DefaultCosts;
    assert [Edit(5, 4, C), Edit(4, 3, D), Edit(3, 3, C), Edit(2, 2, D), Edit(1, 2, C)] + [Edit(0, 1, I)] == [Edit(5, 4, C), Edit(4, 3, D), Edit(3, 3, C), Edit(2, 2, D), Edit(1, 2, C), Edit(0, 1, I)];
    SearchAt0x0AfterCDCDCI(t);
    assert Via(x, y, c, t, 0, 1, I, [Edit(5, 4, C), Edit(4, 3, D), Edit(3, 3, C), Edit(2, 2, D), Edit(1, 2, C)]) == [[Start, Edit(0, 1, I), Edit(1, 2, C), Edit(2, 2, D), Edit(3, 3, C), Edit(4, 3, D), Edit(5, 4, C)]];
    assert Via(x, y, c, t, 0, 1, D, [Edit(5, 4, C), Edit(4, 3, D), Edit(3, 3, C), Edit(2, 2, D), Edit(1, 2, C)]) == [];
    assert Via(x, y, c, t, 0, 1, C, [Edit(5, 4, C), Edit(4, 3, D), Edit(3, 3, C), Edit(2, 2, D), Edit(1, 2, C)]) == [];
  }

  /** The search call at (0, 0) after a change at (5, 4), then a delete at
      (4, 3), then a change at (3, 3), then a delete at (2, 2), then a
      change at (1, 2), then an insert at (0, 1). */
  lemma SearchAt0x0AfterCDCDCI(t: seq<seq<int>>)
    requires t == [[0, 5, 10, 15, 20], [4, 9, 5, 10, 15], [8, 13, 9, 14, 19], [12, 8, 13, 9, 14], [16, 12, 8, 13, 18], [20, 16, 12, 8, 13]]
    ensures Search("aabab", "babb", DefaultCosts, t, 0, 0, [Edit(5, 4, C), Edit(4, 3, D), Edit(3, 3, C), Edit(2, 2, D), Edit(1, 2, C), Edit(0, 1, I)]) == [[Start, Edit(0, 1, I), Edit(1, 2, C), Edit(2, 2, D), Edit(3, 3, C), Edit(4, 3, D), Edit(5, 4, C)]]
  {
    var x, y, c := "aabab", "babb", DefaultCosts;
    assert [Edit(5, 4, C), Edit(4, 3, D), Edit(3, 3, C), Edit(2, 2, D), Edit(1, 2, C), Edit(0, 1, I)] + [Start] == [Edit(5, 4, C), Edit(4, 3, D), Edit(3, 3, C), Edit(2, 2, D), Edit(1, 2, C), Edit(0, 1, I), Start];
    assert Reverse([Edit(5, 4, C), Edit(4, 3, D), Edit(3, 3, C), Edit(2, 2, D), Edit(1, 2, C), Edit(0, 1, I), Start]) == [Start, Edit(0, 1, I), Edit(1, 2, C), Edit(2, 2, D), Edit(3, 3, C), Edit(4, 3, D), Edit(5, 4, C)];
  }

  /** The search call at (4, 2) after a change at (5, 4), then an insert at
      (4, 3). */
  lemma SearchAt4x2AfterCI(t: seq<seq<int>>)
    requires t == [[0, 5, 10, 15, 20], [4, 9, 5, 10, 15], [8, 13, 9, 14, 19], [12, 8, 13, 9, 14], [16, 12, 8, 13, 18], [20, 16, 12, 8, 13]]
    ensures Search("aabab", "babb", DefaultCosts, t, 4, 2, [Edit(5, 4, C), Edit(4, 3, I)]) == [[Start, Edit(1, 0, D), Edit(2, 0, D), Edit(3, 1, C), Edit(4, 2, C), Edit(4, 3, I), Edit(5, 4, C)]]
  {
    var x, y, c := "aabab", "babb", DefaultCosts;
    assert Via(x, y, c, t, 4, 2, I, [Edit(5, 4, C), Edit(4, 3, I)]) == [];
    assert Via(x, y, c, t, 4, 2, D, [Edit(5, 4, C), Edit(4, 3, I)]) == [];
    assert [Edit(5, 4, C), Edit(4, 3, I)] + [Edit(4, 2, C)] == [Edit(5, 4, C), Edit(4, 3, I), Edit(4, 2, C)];
    SearchAt3x1AfterCIC(t);
    assert Via(x, y, c, t, 4, 2, C, [Edit(5, 4, C), Edit(4, 3, I)]) == [[Start, Edit(1, 0, D), Edit(2, 0, D), Edit(3, 1, C), Edit(4, 2, C), Edit(4, 3, I), Edit(5, 4, C)]];
  }

  /** The search call at (3, 1) after a change at (5, 4), then an insert at
      (4, 3), then a change at (4, 2). */
  lemma SearchAt3x1AfterCIC(t: seq<seq<int>>)
    requires t == [[0, 5, 10, 15, 20], [4, 9, 5, 10, 15], [8, 13, 9, 14, 19], [12, 8, 13, 9, 14], [16, 12, 8, 13, 18], [20, 16, 12, 8, 13]]
    ensures Search("aabab", "babb", DefaultCosts, t, 3, 1, [Edit(5, 4, C), Edit(4, 3, I), Edit(4, 2, C)]) == [[Start, Edit(1, 0, D), Edit(2, 0, D), Edit(3, 1, C), Edit(4, 2, C), Edit(4, 3, I), Edit(5, 4, C)]]
  {
    var x, y, c := "aabab", "babb", DefaultCosts;
    assert Via(x, y, c, t, 3, 1, I, [Edit(5, 4, C), Edit(4, 3, I), Edit(4, 2, C)]) == [];
    assert Via(x, y, c, t, 3, 1, D, [Edit(5, 4, C), Edit(4, 3, I), Edit(4, 2, C)]) == [];
    assert [Edit(5, 4, C), Edit(4, 3, I), Edit(4, 2, C)] + [Edit(3, 1, C)] == [Edit(5, 4, C), Edit(4, 3, I), Edit(4, 2, C), Edit(3, 1, C)];
    SearchAt2x0AfterCICC(t);
    assert Via(x, y, c, t, 3, 1, C, [Edit(5, 4, C), Edit(4, 3, I), Edit(4, 2, C)]) == [[Start, Edit(1, 0, D), Edit(2, 0, D), Edit(3, 1, C), Edit(4, 2, C), Edit(4, 3, I), Edit(5, 4, C)]];
  }

  /** The search call at (2, 0) after a change at (5, 4), then an insert at
      (4, 3), then a change at (4, 2), then a change at (3, 1). */
  lemma SearchAt2x0AfterCICC(t: seq<seq<int>>)
    requires t == [[0, 5, 10, 15, 20], [4, 9, 5, 10, 15], [8, 13, 9, 14, 19], [12, 8, 13, 9, 14], [16, 12, 8, 13, 18], [20, 16, 12, 8, 13]]
    ensures Search("aabab", "babb", DefaultCosts, t, 2, 0, [Edit(5, 4, C), Edit(4, 3, I), Edit(4, 2, C), Edit(3, 1, C)]) == [[Start, Edit(1, 0, D), Edit(2, 0, D), Edit(3, 1, C), Edit(4, 2, C), Edit(4, 3, I), Edit(5, 4, C)]]
  {
    var x, y, c := "aabab", "babb", DefaultCosts;
    assert Via(x, y, c, t, 2, 0, I, [Edit(5, 4, C), Edit(4, 3, I), Edit(4, 2, C), Edit(3, 1, C)]) == [];
    assert [Edit(5, 4, C), Edit(4, 3, I), Edit(4, 2, C), Edit(3, 1, C)] + [Edit(2, 0, D)] == [Edit(5, 4, C), Edit(4, 3, I), Edit(4, 2, C), Edit(3, 1, C), Edit(2, 0, D)];
    SearchAt1x0AfterCICCD(t);
    assert Via(x, y, c, t, 2, 0, D, [Edit(5, 4, C), Edit(4, 3, I), Edit(4, 2, C), Edit(3, 1, C)]) == [[Start, Edit(1, 0, D), Edit(2, 0, D), Edit(3, 1, C), Edit(4, 2, C), Edit(4, 3, I), Edit(5, 4, C)]];
    assert Via(x, y, c, t, 2, 0, C, [Edit(5, 4, C), Edit(4, 3, I), Edit(4, 2, C), Edit(3, 1, C)]) == [];
  }

  /** The search call at (1, 0) after a change at (5, 4), then an insert at
      (4, 3), then a change at (4, 2), then a change at (3, 1), then a
      delete at (2, 0). */
  lemma SearchAt1x0AfterCICCD(t: seq<seq<int>>)
    requires t == [[0, 5, 10, 15, 20], [4, 9, 5, 10, 15], [8, 13, 9, 14, 19], [12, 8, 13, 9, 14], [16, 12, 8, 13, 18], [20, 16, 12, 8, 13]]
    ensures Search("aabab", "babb", DefaultCosts, t, 1, 0, [Edit(5, 4, C), Edit(4, 3, I), Edit(4, 2, C), Edit(3, 1, C), Edit(2, 0, D)]) == [[Start, Edit(1, 0, D), Edit(2, 0, D), Edit(3, 1, C), Edit(4, 2, C), Edit(4, 3, I), Edit(5, 4, C)]]
  {
    var x, y, c := "aabab", "babb", DefaultCosts;
    assert Via(x, y, c, t, 1, 0, I, [Edit(5, 4, C), Edit(4, 3, I), Edit(4, 2, C), Edit(3, 1, C), Edit(2, 0, D)]) == [];
    assert [Edit(5, 4, C), Edit(4, 3, I), Edit(4, 2, C), Edit(3, 1, C), Edit(2, 0, D)] + [Edit(1, 0, D)] == [Edit(5, 4, C), Edit(4, 3, I), Edit(4, 2, C), Edit(3, 1, C), Edit(2, 0, D), Edit(1, 0, D)];
    SearchAt0x0AfterCICCDD(t);
    assert Via(x, y, c, t, 1, 0, D, [Edit(5, 4, C), Edit(4, 3, I), Edit(4, 2, C), Edit(3, 1, C), Edit(2, 0, D)]) == [[Start, Edit(1, 0, D), Edit(2, 0, D), Edit(3, 1, C), Edit(4, 2, C), Edit(4, 3, I), Edit(5, 4, C)]];
    assert Via(x, y, c, t, 1, 0, C, [Edit(5, 4, C), Edit(4, 3, I), Edit(4, 2, C), Edit(3, 1, C), Edit(2, 0, D)]) == [];
  }

  /** The search call at (0, 0) after a change at (5, 4), then an insert at
      (4, 3), then a change at (4, 2), then a change at (3, 1), then a
      delete at (2, 0), then a delete at (1, 0). */
  lemma SearchAt0x0AfterCICCDD(t: seq<seq<int>>)
    requires t == [[0, 5, 10, 15, 20], [4, 9, 5, 10, 15], [8, 13, 9, 14, 19], [12, 8, 13, 9, 14], [16, 12, 8, 13, 18], [20, 16, 12, 8, 13]]
    ensures Search("aabab", "babb", DefaultCosts, t, 0, 0, [Edit(5, 4, C), Edit(4, 3, I), Edit(4, 2, C), Edit(3, 1, C), Edit(2, 0, D), Edit(1, 0, D)]) == [[Start, Edit(1, 0, D), Edit(2, 0, D), Edit(3, 1, C), Edit(4, 2, C), Edit(4, 3, I), Edit(5, 4, C)]]
  {
    var x, y, c := "aabab", "babb", DefaultCosts;
    assert [Edit(5, 4, C), Edit(4, 3, I), Edit(4, 2, C), Edit(3, 1, C), Edit(2, 0, D), Edit(1, 0, D)] + [Start] == [Edit(5, 4, C), Edit(4, 3, I), Edit(4, 2, C), Edit(3, 1, C), Edit(2, 0, D), Edit(1, 0, D), Start];
    assert Reverse([Edit(5, 4, C), Edit(4, 3, I), Edit(4, 2, C), Edit(3, 1, C), Edit(2, 0, D), Edit(1, 0, D), Start]) == [Start, Edit(1, 0, D), Edit(2, 0, D), Edit(3, 1, C), Edit(4, 2, C), Edit(4, 3, I), Edit(5, 4, C)];
  }

  /** The search call at (5, 3) after an insert at (5, 4). */
  lemma SearchAt5x3AfterI(t: seq<seq<int>>)
    requires t == [[0, 5, 10, 15, 20], [4, 9, 5, 10, 15], [8, 13, 9, 14, 19], [12, 8, 13, 9, 14], [16, 12, 8, 13, 18], [20, 16, 12, 8, 13]]
    ensures Search("aabab", "babb", DefaultCosts, t, 5, 3, [Edit(5, 4, I)]) == [[Start, Edit(1, 0, D), Edit(2, 0, D), Edit(3, 1, C), Edit(4, 2, C), Edit(5, 3, C), Edit(5, 4, I)]]
  {
    var x, y, c := "aabab", "babb", DefaultCosts;
    assert Via(x, y, c, t, 5, 3, I, [Edit(5, 4, I)]) == [];
    assert Via(x, y, c, t, 5, 3, D, [Edit(5, 4, I)]) == [];
    assert [Edit(5, 4, I)] + [Edit(5, 3, C)] == [Edit(5, 4, I), Edit(5, 3, C)];
    SearchAt4x2AfterIC(t);
    assert Via(x, y, c, t, 5, 3, C, [Edit(5, 4, I)]) == [[Start, Edit(1, 0, D), Edit(2, 0, D), Edit(3, 1, C), Edit(4, 2, C), Edit(5, 3, C), Edit(5, 4, I)]];
  }

  /** The search call at (4, 2) after an insert at (5, 4), then a change at
      (5, 3). */
  lemma SearchAt4x2AfterIC(t: seq<seq<int>>)
    requires t == [[0, 5, 10, 15, 20], [4, 9, 5, 10, 15], [8, 13, 9, 14, 19], [12, 8, 13, 9, 14], [16, 12, 8, 13, 18], [20, 16, 12, 8, 13]]
    ensures Search("aabab", "babb", DefaultCosts, t, 4, 2, [Edit(5, 4, I), Edit(5, 3, C)]) == [[Start, Edit(1, 0, D), Edit(2, 0, D), Edit(3, 1, C), Edit(4, 2, C), Edit(5, 3, C), Edit(5, 4, I)]]
  {
    var x, y, c := "aabab", "babb", DefaultCosts;
    assert Via(x, y, c, t, 4, 2, I, [Edit(5, 4, I), Edit(5, 3, C)]) == [];
    assert Via(x, y, c, t, 4, 2, D, [Edit(5, 4, I), Edit(5, 3, C)]) == [];
    assert [Edit(5, 4, I), Edit(5, 3, C)] + [Edit(4, 2, C)] == [Edit(5, 4, I), Edit(5, 3, C), Edit(4, 2, C)];
    SearchAt3x1AfterICC(t);
    assert Via(x, y, c, t, 4, 2, C, [Edit(5, 4, I), Edit(5, 3, C)]) == [[Start, Edit(1, 0, D), Edit(2, 0, D), Edit(3, 1, C), Edit(4, 2, C), Edit(5, 3, C), Edit(5, 4, I)]];
  }

  /** The search call at (3, 1) after an insert at (5, 4), then a change at
      (5, 3), then a change at (4, 2). */
  lemma SearchAt3x1AfterICC(t: seq<seq<int>>)
    requires t == [[0, 5, 10, 15, 20], [4, 9, 5, 10, 15], [8, 13, 9, 14, 19], [12, 8, 13, 9, 14], [16, 12, 8, 13, 18], [20, 16, 12, 8, 13]]
    ensures Search("aabab", "babb", DefaultCosts, t, 3, 1, [Edit(5, 4, I), Edit(5, 3, C), Edit(4, 2, C)]) == [[Start, Edit(1, 0, D), Edit(2, 0, D), Edit(3, 1, C), Edit(4, 2, C), Edit(5, 3, C), Edit(5, 4, I)]]
  {
    var x, y, c := "aabab", "babb", DefaultCosts;
    assert Via(x, y, c, t, 3, 1, I, [Edit(5, 4, I), Edit(5, 3, C), Edit(4, 2, C)]) == [];
    assert Via(x, y, c, t, 3, 1, D, [Edit(5, 4, I), Edit(5, 3, C), Edit(4, 2, C)]) == [];
    assert [Edit(5, 4, I), Edit(5, 3, C), Edit(4, 2, C)] + [Edit(3, 1, C)] == [Edit(5, 4, I), Edit(5, 3, C), Edit(4, 2, C), Edit(3, 1, C)];
    SearchAt2x0AfterICCC(t);
    assert Via(x, y, c, t, 3, 1, C, [Edit(5, 4, I), Edit(5, 3, C), Edit(4, 2, C)]) == [[Start, Edit(1, 0, D), Edit(2, 0, D), Edit(3, 1, C), Edit(4, 2, C), Edit(5, 3, C), Edit(5, 4, I)]];
  }

  /** The search call at (2, 0) after an insert at (5, 4), then a change at
      (5, 3), then a change at (4, 2), then a change at (3, 1). */
  lemma SearchAt2x0AfterICCC(t: seq<seq<int>>)
    requires t == [[0, 5, 10, 15, 20], [4, 9, 5, 10, 15], [8, 13, 9, 14, 19], [12, 8, 13, 9, 14], [16, 12, 8, 13, 18], [20, 16, 12, 8, 13]]
    ensures Search("aabab", "babb", DefaultCosts, t, 2, 0, [Edit(5, 4, I), Edit(5, 3, C), Edit(4, 2, C), Edit(3, 1, C)]) == [[Start, Edit(1, 0, D), Edit(2, 0, D), Edit(3, 1, C), Edit(4, 2, C), Edit(5, 3, C), Edit(5, 4, I)]]
  {
    var x, y, c := "aabab", "babb", DefaultCosts;
    assert Via(x, y, c, t, 2, 0, I, [Edit(5, 4, I), Edit(5, 3, C), Edit(4, 2, C), Edit(3, 1, C)]) == [];
    assert [Edit(5, 4, I), Edit(5, 3, C), Edit(4, 2, C), Edit(3, 1, C)] + [Edit(2, 0, D)] == [Edit(5, 4, I), Edit(5, 3, C), Edit(4, 2, C), Edit(3, 1, C), Edit(2, 0, D)];
    SearchAt1x0AfterICCCD(t);
    assert Via(x, y, c, t, 2, 0, D, [Edit(5, 4, I), Edit(5, 3, C), Edit(4, 2, C), Edit(3, 1, C)]) == [[Start, Edit(1, 0, D), Edit(2, 0, D), Edit(3, 1, C), Edit(4, 2, C), Edit(5, 3, C), Edit(5, 4, I)]];
    assert Via(x, y, c, t, 2, 0, C, [Edit(5, 4, I), Edit(5, 3, C), Edit(4, 2, C), Edit(3, 1, C)]) == [];
  }

  /** The search call at (1, 0) after an insert at (5, 4), then a change at
      (5, 3), then a change at (4, 2), then a change at (3, 1), then a
      delete at (2, 0). */
  lemma SearchAt1x0AfterICCCD(t: seq<seq<int>>)
    requires t == [[0, 5, 10, 15, 20], [4, 9, 5, 10, 15], [8, 13, 9, 14, 19], [12, 8, 13, 9, 14], [16, 12, 8, 13, 18], [20, 16, 12, 8, 13]]
    ensures Search("aabab", "babb", DefaultCosts, t, 1, 0, [Edit(5, 4, I), Edit(5, 3, C), Edit(4, 2, C), Edit(3, 1, C), Edit(2, 0, D)]) == [[Start, Edit(1, 0, D), Edit(2, 0, D), Edit(3, 1, C), Edit(4, 2, C), Edit(5, 3, C), Edit(5, 4, I)]]
  {
    var x, y, c := "aabab", "babb", DefaultCosts;
    assert Via(x, y, c, t, 1, 0, I, [Edit(5, 4, I), Edit(5, 3, C), Edit(4, 2, C), Edit(3, 1, C), Edit(2, 0, D)]) == [];
    assert [Edit(5, 4, I), Edit(5, 3, C), Edit(4, 2, C), Edit(3, 1, C), Edit(2, 0, D)] + [Edit(1, 0, D)] == [Edit(5, 4, I), Edit(5, 3, C), Edit(4, 2, C), Edit(3, 1, C), Edit(2, 0, D), Edit(1, 0, D)];
    SearchAt0x0AfterICCCDD(t);
    assert Via(x, y, c, t, 1, 0, D, [Edit(5, 4, I), Edit(5, 3, C), Edit(4, 2, C), Edit(3, 1, C), Edit(2, 0, D)]) == [[Start, Edit(1, 0, D), Edit(2, 0, D), Edit(3, 1, C), Edit(4, 2, C), Edit(5, 3, C), Edit(5, 4, I)]];
    assert Via(x, y, c, t, 1, 0, C, [Edit(5, 4, I), Edit(5, 3, C), Edit(4, 2, C), Edit(3, 1, C), Edit(2, 0, D)]) == [];
  }

  /** The search call at (0, 0) after an insert at (5, 4), then a change at
      (5, 3), then a change at (4, 2), then a change at (3, 1), then a
      delete at (2, 0), then a delete at (1, 0). */
  lemma SearchAt0x0AfterICCCDD(t: seq<seq<int>>)
    requires t == [[0, 5, 10, 15, 20], [4, 9, 5, 10, 15], [8, 13, 9, 14, 19], [12, 8, 13, 9, 14], [16, 12, 8, 13, 18], [20, 16, 12, 8, 13]]
    ensures Search("aabab", "babb", DefaultCosts, t, 0, 0, [Edit(5, 4, I), Edit(5, 3, C), Edit(4, 2, C), Edit(3, 1, C), Edit(2, 0, D), Edit(1, 0, D)]) == [[Start, Edit(1, 0, D), Edit(2, 0, D), Edit(3, 1, C), Edit(4, 2, C), Edit(5, 3, C), Edit(5, 4, I)]]
  {
    var x, y, c := "aabab", "babb", DefaultCosts;
    assert [Edit(5, 4, I), Edit(5, 3, C), Edit(4, 2, C), Edit(3, 1, C), Edit(2, 0, D), Edit(1, 0, D)] + [Start] == [Edit(5, 4, I), Edit(5, 3, C), Edit(4, 2, C), Edit(3, 1, C), Edit(2, 0, D), Edit(1, 0, D), Start];
    assert Reverse([Edit(5, 4, I), Edit(5, 3, C), Edit(4, 2, C), Edit(3, 1, C), Edit(2, 0, D), Edit(1, 0, D), Start]) == [Start, Edit(1, 0, D), Edit(2, 0, D), Edit(3, 1, C), Edit(4, 2, C), Edit(5, 3, C), Edit(5, 4, I)];
  }
}
